=== FILE: README.md ===
# coredex in Dafny

A model of coredex, three Python scripts that load the Washington Metro rail
network into a graph database.

- **wmata2csv.py** fetches three things from the transit API: the lines, the
  stations and, for each line, the path from its first to its last station.
  It builds two collections:
  - stations, keyed by station name;
  - track segments in both directions, keyed by `<from code>_<to code>`.

  It then writes a node file and an edge file through `csv.DictWriter`. It
  also carries a JSON flattener (`flatten_dict` / `flatten_list`) that turns
  nested objects and lists into dotted column names.
- **csv2neptune.py** reads the two files back. Each node row becomes an
  add-vertex traversal and each edge row an add-edge traversal. Columns
  starting with `~` are reserved; every other column `name:type` becomes a
  property.
- **csv2neo4j.py** reads the same files. It turns each row into a Cypher
  `CREATE` or `MATCH ... CREATE` statement, splicing the cells into the text
  as they are.

Modules:

| file | module | models |
|---|---|---|
| common.dfy | `Common` | `Option`, `Result`, and a Python `dict` built by assignments in order (`ToMap`) |
| strings.dfy | `Strings` | `lower()`, `split`/`join` on one character, decimal rendering of a `nat` |
| csv.dfy | `Csv` | `DictWriter` with `restval=''` and `extrasaction='ignore'`; `DictReader` rows and `row[column]` |
| flatten.dfy | `Flatten` | `flatten_dict`, `flatten_list`, and a reference leaf stream |
| fetch.dfy | `Fetch` | the body of wmata2csv.py `main` |
| loading.dfy | `Loading` | `id_transform`, column lookup, and the nodes-then-edges pass the two loaders share |
| neptune.dfy | `Neptune` | csv2neptune.py |
| neo4j.dfy | `Neo4j` | csv2neo4j.py |
| pipeline.dfy | `Pipeline` | what a loader derives from what the fetcher wrote |

Modelling choices:

- **Aborts.** A failed dict lookup (`KeyError`) or a failed tuple unpack
  (`ValueError`) aborts a script. In the model this is a `Failure` carrying the
  missing key or the offending column.
- **Partial loads.** The loaders talk to a database while they read, so a
  loader run is a `Run`: the commands it sent before the row that raised, plus
  that row's error.
- **Dict iteration order.** The outer segment loop walks `lines.values()` in
  dict order, which Python 2 leaves unspecified. The model takes that order as
  a parameter `order`, constrained to list every line code exactly once.
- **HTTP.** Each line's path request is the function parameter
  `path(start, end)`.

## Model

| member | source | states |
|---|---|---|
| Common.ToMap | wmata2csv.py:307-308 | `dict(pairs)` has at most as many entries as there are pairs |
| Common.ToMapLastWins | wmata2csv.py:307-308 | in a dict built from a sequence of pairs, a key's value comes from the last pair with that key |
| Common.ToMapKeys | wmata2csv.py:307-308 | the dict's keys are exactly the keys of the pairs |
| Common.ToMapValues | wmata2csv.py:307-308 | every value in the dict comes from the last pair with that key |
| Common.ToMapAppend | wmata2csv.py:286-289 | extending the pair list with another list's pairs gives the first dict overridden by the second |
| Strings.Lower | wmata2csv.py:48 | `lower()` keeps the length, turns each upper-case letter into its lower-case counterpart, and changes no other character |
| Strings.LowerIdempotent | wmata2csv.py:48 | lower-casing twice is the same as lower-casing once |
| Strings.Split | csv2neptune.py:53 | `split(':')` gives one more part than there are separators, and no part contains the separator |
| Strings.JoinSplit | csv2neptune.py:53 | joining the parts of a split with the separator gives back the original column name |
| Strings.SplitJoin | csv2neptune.py:53 | splitting a join of separator-free parts gives back the parts |
| Strings.NatToString | wmata2csv.py:318 | `%s` of a list index is its canonical decimal: a non-empty string of digits, with no leading `0` unless the index is 0 |
| Strings.ParseNatToString | wmata2csv.py:318 | the rendered index reads back as that index, so the rendering loses nothing |
| Strings.NatToStringInjective | wmata2csv.py:318 | distinct list indices render as distinct digit strings |
| Csv.Read | csv2neptune.py:45 | a read row has one cell per header column, under that column, in header order; with Csv.ReadWrite it gives back what the writer wrote |
| Csv.Get | csv2neptune.py:47 | `row[column]` finds a value exactly when some cell of the row is under that column |
| Csv.GetIsDictLookup | csv2neptune.py:45-47 | looking a column up in the row is a lookup in the dict the reader builds, where the last cell under a repeated column wins |
| Csv.Write | wmata2csv.py:106-110 | the writer emits one cell per header column, whatever the record holds |
| Csv.ReadWrite | wmata2csv.py:107 | reading back a written record: every header column holds the record's value or `''`, and a field outside the header is gone |
| Flatten.Cell | wmata2csv.py:283-305 | a value flattened under a non-empty column yields only scalars, all at that column or beneath it |
| Flatten.FlattenDict | wmata2csv.py:271-308 | every value is a scalar, and under a non-empty parent every column starts with `parent.` |
| Flatten.FlattenList | wmata2csv.py:311-349 | every value is a scalar, and every column starts with `parent.`, including when the parent is empty |
| Flatten.LeavesAreScalars | wmata2csv.py:298-305 | the leaf stream holds scalars only |
| Flatten.CellIsLastWins | wmata2csv.py:271-349 | the flattened dict is the stream of (column, scalar) leaves read as a dict, a later equal column overwriting an earlier one |
| Flatten.DictIsLastWins | wmata2csv.py:271-308 | the same for an object's members |
| Flatten.ListIsLastWins | wmata2csv.py:311-349 | the same for a list's items |
| Flatten.AtMostOneColumnPerLeaf | wmata2csv.py:307-308 | the result has at most one column per scalar leaf, and its columns are exactly the leaves' columns |
| Flatten.ListAtMostOneColumnPerLeaf | wmata2csv.py:311-349 | for a list, the result has at most one column per scalar leaf, and its columns are exactly the leaves' columns |
| Flatten.DictLeavesAppend | wmata2csv.py:277-305 | the leaves of concatenated members are the concatenated leaves |
| Flatten.EmptyContainerContributesNothing | wmata2csv.py:283-296 | a member whose value is an empty object or empty list adds no column: removing it changes nothing |
| Flatten.DictMemberKept | wmata2csv.py:277-305 | every column a member contributes is in the result; the last member's values win; at top level a scalar member's column is its bare key |
| Flatten.ListColumnsDisjoint | wmata2csv.py:316-318 | columns under different list indices never coincide |
| Flatten.ListItemKept | wmata2csv.py:311-349 | no list item overwrites another: item i's columns all survive with their values, and a scalar item sits at `parent.i` |
| Fetch.BuildLines | wmata2csv.py:42-51 | the lines dict has at most one entry per input line |
| Fetch.BuildLinesSpec | wmata2csv.py:42-51 | every line code is a key; the last entry with a code supplies its line; each line's id is its key and its colour is its lower-cased display name |
| Fetch.StationColor | wmata2csv.py:74-78 | the colour lookup fails exactly when `StationTogether1` is empty or missing and `LineCode1` is not a known line, and the failure is the `KeyError` for that line code; the colour itself is stated by Fetch.StationColorRule |
| Fetch.BuildStations | wmata2csv.py:60-92 | the station loop succeeds exactly when every station's colour resolves; otherwise it fails with the first failing station's error |
| Fetch.BuildStationsIsDicts | wmata2csv.py:60-92 | both station dicts are plain assignments in input order |
| Fetch.BuildStationsTables | wmata2csv.py:60-92 | every name and code is a key; the last station with a name or code wins; each record's id and name equal its key; every mapped name has a station record |
| Fetch.StationColorRule | wmata2csv.py:74-91 | the surviving record for a name is purple when that station shares a platform, and otherwise has its first line's colour |
| Fetch.SegmentIdInjective | wmata2csv.py:129 | for codes without `_`, a segment id determines its two codes |
| Fetch.Step | wmata2csv.py:128-152 | a step succeeds exactly when both codes and the line resolve; it adds the forward and reverse ids; failures report the first key missing, in the order the source looks them up |
| Fetch.StepWrites | wmata2csv.py:129-152 | the reverse record is written last and always survives; the forward record survives unless its id equals the reverse one; other entries are untouched |
| Fetch.StepRecords | wmata2csv.py:129-152 | for `_`-free codes, the forward segment runs between the two stations' names and the reverse mirrors it, with the step's distance, line code and colour |
| Fetch.Walk | wmata2csv.py:126-154 | the path walk succeeds exactly when every step resolves, and adds exactly the ids of its steps; on failure it reports the `KeyError` of the first step that does not resolve (Fetch.WalkError), in the step's own lookup order |
| Fetch.NewIdsBound | wmata2csv.py:128-152 | a walk of n steps writes at most 2·n ids |
| Fetch.WalkEndpoints | wmata2csv.py:131-152 | every segment endpoint a walk writes is the name of a known station code |
| Fetch.LineSegments | wmata2csv.py:115-154 | one line's walk from `StartStationCode` over `paths[1:]` succeeds exactly when every step resolves, and adds exactly that walk's ids; on failure the error is the first failing step's `KeyError` |
| Fetch.LineSegmentsBound | wmata2csv.py:128-152 | a path of n stations adds at most 2·(n−1) segments, and none for an empty path |
| Fetch.EnumeratedLinesExist | wmata2csv.py:114-116 | every line code `lines.values()` visits is a key of the `lines` dict built from the API's lines |
| Fetch.AllSegments | wmata2csv.py:114-154 | the outer loop succeeds exactly when every line's walk resolves, and then adds exactly the ids of all those walks; on failure the error is the walk error of the first line, in loop order, whose walk does not resolve (Fetch.FirstFailingLine, Fetch.LineError) |
| Fetch.AllSegmentsEndpoints | wmata2csv.py:114-154 | over all lines, every segment's endpoints are names of known codes |
| Fetch.StepKeepsSymmetry | wmata2csv.py:141-152 | for `_`-free codes, a step keeps every segment paired with its mirrored reverse |
| Fetch.WalkKeepsSymmetry | wmata2csv.py:128-154 | a whole walk keeps that pairing, even where later steps overwrite earlier ones |
| Fetch.AllSegmentsKeepSymmetry | wmata2csv.py:114-154 | over all lines, every segment has its mirrored reverse |
| Fetch.Run | wmata2csv.py:42-172 | the run stops before any file is written exactly when a station's colour lookup fails, with the first such station's `KeyError`; otherwise the node file's stations are exactly the station loop's records (so every station name is there, each keyed by its own id), the segment loop runs over every line code in `order`, and its outcome (Fetch.SegmentLoopOutcome) is that it succeeds exactly when every line's walk resolves, writing exactly the ids of those walks, and the written segments are exactly the records the loop builds (Fetch.AllSegments from an empty dict); when it fails, the error is the first failing line's walk error, the node file stays written and no edge file is; every written segment's endpoints name station records |
| Fetch.NodeRows | wmata2csv.py:106-110 | one node row per station, holding that station's id, label, name, lat, lon and colour in header order |
| Fetch.EdgeRows | wmata2csv.py:168-172 | one edge row per segment, holding that segment's id, from, to, label, distance and colour in header order; the line code is not written |
| Fetch.NodeRowShape | wmata2csv.py:106-110 | a station row holds id, label, name, lat, lon and colour, in header order |
| Fetch.EdgeRowShape | wmata2csv.py:168-172 | a segment row holds id, from, to, label, distance and colour, and the line code never reaches the file |
| Loading.IdTransform | csv2neptune.py:21-27 | the transformed id is the original id prefixed with `id_` |
| Loading.IdTransformRecovers | csv2neptune.py:21-27 | the original id can be read back after the prefix |
| Loading.IdTransformInjective | csv2neo4j.py:16-22 | distinct ids stay distinct |
| Loading.Column | csv2neptune.py:47 | `row[column]` fails exactly when the column is absent, with a `KeyError` for that column; otherwise it returns some cell of that column |
| Loading.SendAll | csv2neptune.py:44-55 | one command per row in file order; the first row that raises ends the pass, with nothing sent for it |
| Loading.Load | csv2neptune.py:43-73 | node rows are sent before edge rows; a run completes exactly when every row converts; a failing node row means no edge is sent |
| Neptune.PropertyColumns | csv2neptune.py:50-52 | a cell is kept exactly when it is in the row and its column does not start with `~` |
| Neptune.PropertyColumnsCell | csv2neptune.py:50-52 | a single cell is kept or dropped by its column alone: kept exactly when the column does not start with `~` |
| Neptune.PropertyColumnsAppend | csv2neptune.py:50-52 | the kept cells of a concatenation are the concatenated kept cells, so row order is kept and nothing is duplicated |
| Neptune.Properties | csv2neptune.py:50-54 | the property loop succeeds exactly when every non-reserved column has exactly one `:`; otherwise the error names an offending column |
| Neptune.PropertiesAppend | csv2neptune.py:50-54 | the property loop goes cell by cell: two well-typed rows side by side give the first row's properties followed by the second's |
| Neptune.PropertiesSpec | csv2neptune.py:50-54 | one property per non-reserved column, in order: its name is the text before the `:`, its value the raw cell |
| Neptune.VertexCommand | csv2neptune.py:46-55 | a node row gives `addV(label)` with the transformed id and the properties; failures come in lookup order: `~id`, then `~label`, then a property column |
| Neptune.EdgeCommand | csv2neptune.py:60-73 | an edge row gives `addE(label)` between the transformed `~from` and `~to`, with the transformed id and the properties; failures come in lookup order |
| Neptune.Load | csv2neptune.py:43-73 | a run completes exactly when every node row gives a vertex and every edge row an edge, and then sends one traversal per row; the i-th traversal sent is node row i's vertex for i below the node count and otherwise the matching edge row's edge; a run stopped in the node file sends no edge and reports that node row's error; a run stopped in the edge file reports that edge row's error |
| Neptune.VerticesThenEdges | csv2neptune.py:43-73 | a complete run is all the vertices in file order, then all the edges, with no deduplication |
| Neptune.EdgeEndpointsMatchVertices | csv2neptune.py:47-66 | an edge whose `~from` or `~to` equals a node row's `~id` uses that vertex's exact id |
| Neptune.MissingIdStopsRun | csv2neptune.py:44-49 | a node row without `~id` ends the run after the earlier vertices, and no edge is sent |
| Neo4j.NodeStatement | csv2neo4j.py:44-51 | a node row gives the `CREATE` statement for its transformed id, name and colour; failures come in lookup order |
| Neo4j.EdgeStatement | csv2neo4j.py:64-73 | an edge row gives the `MATCH ... CREATE` statement for its transformed endpoints; `~id` must exist but is never used |
| Neo4j.Load | csv2neo4j.py:39-73 | a run completes exactly when every row has the columns it reads, and then sends one statement per row; the i-th statement sent is node row i's `CREATE` for i below the node count and otherwise the matching edge row's `MATCH`; a run stopped in the node file sends no edge statement and reports that node row's missing column; a run stopped in the edge file reports that edge row's missing column |
| Neo4j.CreateNodeQuoted | csv2neo4j.py:49 | the string literals of a `CREATE` statement are the id, the name and the colour, when none of them contains `"` |
| Neo4j.MatchCreateEdgeQuoted | csv2neo4j.py:71 | the string literals of a `MATCH` statement are the two endpoint ids, when neither contains `"` |
| Neo4j.SplicingIsAmbiguous | csv2neo4j.py:49 | without escaping, two different (name, colour) pairs can produce the same statement |
| Neo4j.NodeStatementIgnoresOtherColumns | csv2neo4j.py:44-51 | the statement depends only on `~id`, `name:string` and `color:string`; label, lat and lon never matter |
| Neo4j.EdgeStatementIgnoresId | csv2neo4j.py:66-71 | once `~id` is present, the edge statement depends only on `~from` and `~to` |
| Neo4j.StatementsInFileOrder | csv2neo4j.py:39-73 | a complete run is all node statements, then all edge statements; an edge whose `~from` is a node's `~id` matches the id that node was created with |
| Pipeline.StationProperties | csv2neptune.py:50-54 | a fetched station's row gives the properties name, lat, lon and colour, in that order |
| Pipeline.SegmentProperties | csv2neptune.py:68-72 | a fetched segment's row gives the properties distance and colour |
| Pipeline.StationVertex | csv2neptune.py:46-55 | a fetched station becomes the vertex with its label, its transformed name as id, and those four properties |
| Pipeline.SegmentEdge | csv2neptune.py:60-73 | a fetched segment becomes the edge between the transformed names of its endpoints, without its line code |
| Pipeline.StationCreate | csv2neo4j.py:44-51 | a fetched station becomes the `CREATE` statement for its id, name and colour |
| Pipeline.SegmentMatch | csv2neo4j.py:64-73 | a fetched segment becomes the `MATCH` statement for its endpoints |
| Pipeline.EdgeJoinsVertices | csv2neptune.py:47-66 | an edge between two stations keyed by their own ids starts and ends at those stations' vertex ids |
| Pipeline.EdgesJoinVertices | wmata2csv.py:84-172 | after a fetch whose segment loop succeeds, every edge row read back from the edge file gives an edge whose endpoints are the ids of the vertices given by the node rows of its two stations |
| Pipeline.CypherEdgeFindsNode | csv2neo4j.py:46-71 | a segment's `MATCH` looks its source up by exactly the id literal that station's `CREATE` stored, when no spliced value contains `"` |

## Left out

- HTTP requests, the API key, `argparse`, logging and `print`: the API's
  responses are inputs, and the path request is the function `path`.
- Opening and writing files, and `exit(1)` on an `IOError`. A file is its
  sequence of rows, and a row its sequence of cells.
- CSV quoting, delimiters and line splitting. `DictReader`'s handling of short
  rows (`None` cells) and long rows (extra cells under the key `None`) is also
  left out. A read row pairs the header with exactly as many cells.
- The Gremlin connection and the Neo4j session. A loader run is the sequence of
  commands or statements it would send. `v.next()`, `e.next()` and
  `session.run` are the point where a command is sent, and database-side
  failures are not modelled.
- The final vertex and edge counts that csv2neptune.py prints.
- The iteration order of `stations.values()` and `segments.values()` when
  writing. The written files are modelled as maps from key to row, not as an
  ordered file.
- Python 2 `unicode` values and their UTF-8 encoding in the flattener: a JSON
  string is kept as it is. Numbers are their text, and there is no floating
  point.
- Latitude, longitude and distance are kept as the text written to the cell.
- Strings.Lower: lower-cases ASCII `A`–`Z` only; Unicode case mapping is not
  modelled, because line display names are ASCII.
- Neptune.Properties: a read row keeps every cell in header order, so a
  column repeated in the header gives its property twice, the first time with
  the first cell. In Python 2.7, the scripts' version, `csv.DictReader`
  builds its row as `dict(zip(...))`, so the script sends that property once,
  carrying the last cell. Lookups of a single column (`Csv.Get`) already use the last cell. In
  Python 2 the order of the properties is also unspecified. The files
  wmata2csv.py writes have no repeated column.
- Fetch.StepRecords: stated only for station codes without `_`. With `_` in a
  code, `"%s_%s"` ids can collide. For example `x_x` and `x` give the same
  forward and reverse id, so the reverse record overwrites the forward one.
  Fetch.StepWrites states what is written for any codes.
- Fetch.StepKeepsSymmetry, Fetch.WalkKeepsSymmetry and
  Fetch.AllSegmentsKeepSymmetry: stated only for codes without `_`, for the
  same reason.
- Neo4j.CreateNodeQuoted and Neo4j.MatchCreateEdgeQuoted: stated only for
  values without `"`. The script does no escaping, and `Neo4j.SplicingIsAmbiguous`
  shows that other values cannot be read back.
- The commented-out batch CSV conversion in wmata2csv.py (lines 177-268) is
  not part of this model.

=== FILE: common.dfy ===
/** Option and Result types, and the last-write-wins map that every Python
    dict built by repeated assignment in the scripts turns into. */
module Common {

  datatype Option<+T> = None | Some(value: T)

  datatype Result<+R, +E> = Success(value: R) | Failure(error: E) {
    predicate IsFailure() {
      Failure?
    }

    function PropagateFailure<U>(): Result<U, E>
      requires Failure?
    {
      Failure(error)
    }

    function Extract(): R
      requires Success?
    {
      value
    }
  }

  /** Index `i` holds the last pair of `ps` whose key is `ps[i].0`. */
  ghost predicate IsLastFor<K, V>(ps: seq<(K, V)>, i: int)
  {
    && 0 <= i < |ps|
    && forall j :: i < j < |ps| ==> ps[j].0 != ps[i].0
  }

  /** `dict(ps)` in Python: a later pair overwrites an earlier one with the same key. */
  function ToMap<K(==), V>(ps: seq<(K, V)>): (m: map<K, V>)
    ensures |m| <= |ps|
  {
    if |ps| == 0 then map[]
    else
      var last := ps[|ps| - 1];
      ToMap(ps[..|ps| - 1])[last.0 := last.1]
  }

  /** Every key of the pairs is a key of the map, and nothing else is. */
  lemma {:induction false} ToMapKeys<K, V>(ps: seq<(K, V)>)
    ensures forall i :: 0 <= i < |ps| ==> ps[i].0 in ToMap(ps)
    ensures forall k :: k in ToMap(ps) ==> exists i :: 0 <= i < |ps| && ps[i].0 == k
  {
    if |ps| > 0 {
      var prefix := ps[..|ps| - 1];
      ToMapKeys(prefix);
      forall k | k in ToMap(ps)
        ensures exists i :: 0 <= i < |ps| && ps[i].0 == k
      {
        if k != ps[|ps| - 1].0 {
          var i :| 0 <= i < |prefix| && prefix[i].0 == k;
          assert ps[i].0 == k;
        }
      }
    }
  }

  /** The value under a key is the one of the last pair carrying that key. */
  lemma {:induction false} ToMapLastWins<K, V>(ps: seq<(K, V)>, i: int)
    requires IsLastFor(ps, i)
    ensures ps[i].0 in ToMap(ps) && ToMap(ps)[ps[i].0] == ps[i].1
  {
    if i < |ps| - 1 {
      var prefix := ps[..|ps| - 1];
      assert IsLastFor(prefix, i);
      ToMapLastWins(prefix, i);
    }
  }

  /** Every value of the map comes from the last pair carrying its key. */
  lemma {:induction false} ToMapValues<K, V>(ps: seq<(K, V)>)
    ensures forall k :: k in ToMap(ps) ==> exists i :: IsLastFor(ps, i) && ps[i].0 == k && ToMap(ps)[k] == ps[i].1
  {
    if |ps| > 0 {
      var prefix := ps[..|ps| - 1];
      ToMapValues(prefix);
      forall k | k in ToMap(ps)
        ensures exists i :: IsLastFor(ps, i) && ps[i].0 == k && ToMap(ps)[k] == ps[i].1
      {
        if k == ps[|ps| - 1].0 {
          assert IsLastFor(ps, |ps| - 1);
        } else {
          var i :| IsLastFor(prefix, i) && prefix[i].0 == k && ToMap(prefix)[k] == prefix[i].1;
          assert IsLastFor(ps, i);
        }
      }
    }
  }

  /** The pairs of `a + b` build the map of `a` overridden by the map of `b`. */
  lemma {:induction false} ToMapAppend<K, V>(a: seq<(K, V)>, b: seq<(K, V)>)
    ensures ToMap(a + b) == ToMap(a) + ToMap(b)
    decreases |b|
  {
    if |b| == 0 {
      assert a + b == a;
    } else {
      var b' := b[..|b| - 1];
      assert (a + b)[..|a + b| - 1] == a + b';
      ToMapAppend(a, b');
    }
  }

  /** A subset is no larger than its superset. */
  lemma SubsetCard<T>(a: set<T>, b: set<T>)
    requires a <= b
    ensures |a| <= |b|
  {
    assert b == a + (b - a);
  }
}

=== FILE: csv.dfy ===
/** The two sides of the CSV interchange: `csv.DictWriter` (configured with
    `restval=''` and `extrasaction='ignore'`) cutting a record to a fixed
    header, and `csv.DictReader` pairing a header with a row's cells. Quoting
    and delimiting are not modelled: a row is its sequence of cells. */
module Csv {
  import opened Common

  /** A parsed row: column names paired with cells, in header order. */
  type Row = seq<(string, string)>

  /** `row[column]` on the reader's dict; a missing column is a `KeyError`,
      here `None`. Pairing the header with the cells through `dict(zip(...))`
      lets a repeated column name keep its last cell. */
  function Get(row: Row, column: string): (r: Option<string>)
    ensures r.Some? <==> exists i :: 0 <= i < |row| && row[i].0 == column
  {
    if |row| == 0 then None
    else if row[|row| - 1].0 == column then Some(row[|row| - 1].1)
    else Get(row[..|row| - 1], column)
  }

  /** Looking a column up in the row is looking it up in the dict the row
      builds, with later cells overriding earlier ones. */
  lemma {:induction false} GetIsDictLookup(row: Row, column: string)
    ensures Get(row, column) == if column in ToMap(row) then Some(ToMap(row)[column]) else None
  {
    if |row| > 0 {
      GetIsDictLookup(row[..|row| - 1], column);
    }
  }

  /** The cells `DictWriter.writerow` emits for `rec`: one per header column,
      in header order, the empty string for a column `rec` lacks; fields of
      `rec` outside the header are dropped. */
  function Write(header: seq<string>, rec: map<string, string>): (cells: seq<string>)
    ensures |cells| == |header|
  {
    seq(|header|, i requires 0 <= i < |header| => if header[i] in rec then rec[header[i]] else "")
  }

  /** The row `DictReader` yields for a line with one cell per header column. */
  function Read(header: seq<string>, cells: seq<string>): (row: Row)
    requires |cells| == |header|
    ensures |row| == |header|
    ensures forall i :: 0 <= i < |row| ==> row[i].0 == header[i]
  {
    seq(|header|, i requires 0 <= i < |header| => (header[i], cells[i]))
  }

  /** A column whose every cell in the row holds `v` reads as `v`. */
  lemma {:induction false} GetUniform(row: Row, column: string, v: string)
    requires exists i :: 0 <= i < |row| && row[i].0 == column
    requires forall i :: 0 <= i < |row| && row[i].0 == column ==> row[i].1 == v
    ensures Get(row, column) == Some(v)
  {
    if row[|row| - 1].0 != column {
      var i :| 0 <= i < |row| && row[i].0 == column;
      assert row[..|row| - 1][i].0 == column;
      GetUniform(row[..|row| - 1], column, v);
    }
  }

  /** A column that occurs once in the row reads as its own cell. */
  lemma GetDistinct(row: Row, i: int)
    requires 0 <= i < |row|
    requires forall j :: 0 <= j < |row| && j != i ==> row[j].0 != row[i].0
    ensures Get(row, row[i].0) == Some(row[i].1)
  {
    GetUniform(row, row[i].0, row[i].1);
  }

  /** Reading back a written record: every header column is present, holding
      the record's value or `''`; no column outside the header survives. */
  lemma ReadWrite(header: seq<string>, rec: map<string, string>, column: string)
    ensures Get(Read(header, Write(header, rec)), column)
         == if column !in header then None
            else if column in rec then Some(rec[column])
            else Some("")
  {
    var row := Read(header, Write(header, rec));
    if column in header {
      var i :| 0 <= i < |header| && header[i] == column;
      assert row[i].0 == column;
      GetUniform(row, column, if column in rec then rec[column] else "");
    }
  }
}

=== FILE: fetch.dfy ===
/** The body of `main` in wmata2csv.py: the transit API's line, station and
    path responses become a station collection keyed by station name and a
    segment collection keyed by segment id, each then cut to its CSV header.
    The HTTP responses are inputs; the per-line path request is the function
    parameter `path`. */
module Fetch {
  import opened Common
  import opened Strings
  import Csv

  // ---------------------------------------------------------------------
  // The API's records.

  /** One entry of the `Lines` response. */
  datatype LineInfo = LineInfo(lineCode: string, displayName: string, startStationCode: string, endStationCode: string)

  /** One entry of the `Stations` response; `StationTogether1` may be null.
      Coordinates are kept as the text written to the CSV cell. */
  datatype StationInfo = StationInfo(
    code: string, name: string, lat: string, lon: string,
    lineCode1: string, stationTogether1: Option<string>)

  /** One entry of a `Path` response. */
  datatype PathStep = PathStep(stationCode: string, distanceToPrev: string, lineCode: string)

  // ---------------------------------------------------------------------
  // The records the script builds.

  datatype Line = Line(id: string, name: string, color: string, startStationCode: string, endStationCode: string)

  datatype Station = Station(id: string, tag: string, name: string, lat: string, lon: string, color: string) {
    /** The dict the script stores, keyed by CSV column. */
    function Fields(): map<string, string> {
      map["~id" := id, "~label" := tag, "name:string" := name,
          "lat:double" := lat, "lon:double" := lon, "color:string" := color]
    }
  }

  datatype Segment = Segment(id: string, from: string, to: string, tag: string,
                             distance: string, lineCode: string, color: string) {
    /** The dict the script stores, keyed by CSV column. */
    function Fields(): map<string, string> {
      map["~id" := id, "~from" := from, "~to" := to, "~label" := tag,
          "distance:int" := distance, "linecode:string" := lineCode, "color:string" := color]
    }
  }

  /** A failed dict lookup (`KeyError`), which aborts the script. */
  datatype FetchError = UnknownLine(lineCode: string) | UnknownStation(code: string)

  const Purple: string := "purple"
  const StationLabel: string := "STATION"
  const SegmentLabel: string := "SEGMENT"
  const NodeHeader: seq<string> := ["~id", "~label", "name:string", "lat:double", "lon:double", "color:string"]
  const EdgeHeader: seq<string> := ["~id", "~from", "~to", "~label", "distance:int", "color:string"]

  // ---------------------------------------------------------------------
  // Lines.

  function MakeLine(l: LineInfo): Line {
    Line(l.lineCode, l.displayName, Lower(l.displayName), l.startStationCode, l.endStationCode)
  }

  /** The assignments `lines[code] = {...}` in input order. */
  function LinePairs(infos: seq<LineInfo>): (ps: seq<(string, Line)>)
    ensures |ps| == |infos|
  {
    seq(|infos|, i requires 0 <= i < |infos| => (infos[i].lineCode, MakeLine(infos[i])))
  }

  /** The `lines` dict, keyed by line code. */
  function BuildLines(infos: seq<LineInfo>): (lines: map<string, Line>)
    ensures |lines| <= |infos|
  {
    ToMap(LinePairs(infos))
  }

  /** Every line code of the input is a key; the last entry with a code
      supplies its line; and each line's colour is its lower-cased display
      name. */
  lemma BuildLinesSpec(infos: seq<LineInfo>)
    ensures forall i :: 0 <= i < |infos| ==> infos[i].lineCode in BuildLines(infos)
    ensures forall i :: 0 <= i < |infos| && (forall j :: i < j < |infos| ==> infos[j].lineCode != infos[i].lineCode) ==>
              BuildLines(infos)[infos[i].lineCode] == MakeLine(infos[i])
    ensures forall c :: c in BuildLines(infos) ==>
              BuildLines(infos)[c].id == c && BuildLines(infos)[c].color == Lower(BuildLines(infos)[c].name)
  {
    var ps := LinePairs(infos);
    assert forall i :: 0 <= i < |infos| ==> ps[i] == (infos[i].lineCode, MakeLine(infos[i]));
    ToMapKeys(ps);
    ToMapValues(ps);
    forall i | 0 <= i < |infos| && (forall j :: i < j < |infos| ==> infos[j].lineCode != infos[i].lineCode)
      ensures BuildLines(infos)[infos[i].lineCode] == MakeLine(infos[i])
    {
      assert IsLastFor(ps, i);
      ToMapLastWins(ps, i);
    }
  }

  // ---------------------------------------------------------------------
  // Stations.

  /** A station that shares its platform with another (non-empty
      `StationTogether1`) is purple; otherwise it takes the colour of its
      first line, which must be known. */
  function StationColor(s: StationInfo, lines: map<string, Line>): (r: Result<string, FetchError>)
    ensures r.Failure? <==> (s.stationTogether1.None? || s.stationTogether1.value == "") && s.lineCode1 !in lines
    ensures r.Failure? ==> r.error == UnknownLine(s.lineCode1)
  {
    if s.stationTogether1.Some? && s.stationTogether1.value != "" then Success(Purple)
    else if s.lineCode1 in lines then Success(lines[s.lineCode1].color)
    else Failure(UnknownLine(s.lineCode1))
  }

  function MakeStation(s: StationInfo, color: string): Station {
    Station(s.name, StationLabel, s.name, s.lat, s.lon, color)
  }

  /** The `stations` dict (keyed by station name) and the `code_to_station`
      dict (station code to name). */
  datatype StationTables = StationTables(stations: map<string, Station>, codeToName: map<string, string>)

  ghost predicate AllColored(infos: seq<StationInfo>, lines: map<string, Line>) {
    forall i :: 0 <= i < |infos| ==> StationColor(infos[i], lines).Success?
  }

  /** The station loop. It fails exactly when some station's colour cannot be
      determined, and then with the error of the first such station. */
  function BuildStations(infos: seq<StationInfo>, lines: map<string, Line>): (r: Result<StationTables, FetchError>)
    ensures r.Success? <==> AllColored(infos, lines)
    ensures r.Failure? ==> exists i :: 0 <= i < |infos| && StationColor(infos[i], lines) == Failure(r.error)
                                       && forall j :: 0 <= j < i ==> StationColor(infos[j], lines).Success?
  {
    if |infos| == 0 then Success(StationTables(map[], map[]))
    else
      var s := infos[|infos| - 1];
      match BuildStations(infos[..|infos| - 1], lines)
      case Failure(e) =>
        assert forall j :: 0 <= j < |infos| - 1 ==> infos[..|infos| - 1][j] == infos[j];
        Failure(e)
      case Success(t) =>
        match StationColor(s, lines)
        case Failure(e) => Failure(e)
        case Success(color) =>
          Success(StationTables(t.stations[s.name := MakeStation(s, color)], t.codeToName[s.code := s.name]))
  }

  /** The colour the loop assigns, or `""` where it would have failed. */
  function ColorOf(s: StationInfo, lines: map<string, Line>): string {
    match StationColor(s, lines)
    case Success(c) => c
    case Failure(_) => ""
  }

  /** The assignments `stations[name] = {...}` in input order. */
  function StationPairs(infos: seq<StationInfo>, lines: map<string, Line>): (ps: seq<(string, Station)>)
    ensures |ps| == |infos|
  {
    seq(|infos|, i requires 0 <= i < |infos| => (infos[i].name, MakeStation(infos[i], ColorOf(infos[i], lines))))
  }

  /** The assignments `code_to_station[code] = name` in input order. */
  function CodePairs(infos: seq<StationInfo>): (ps: seq<(string, string)>)
    ensures |ps| == |infos|
  {
    seq(|infos|, i requires 0 <= i < |infos| => (infos[i].code, infos[i].name))
  }

  lemma AllColoredPrefix(infos: seq<StationInfo>, lines: map<string, Line>, n: nat)
    requires n <= |infos| && AllColored(infos, lines)
    ensures AllColored(infos[..n], lines)
  {
    assert forall i :: 0 <= i < n ==> infos[..n][i] == infos[i];
  }

  /** The loop builds both dicts by plain assignment in input order. */
  lemma {:induction false} BuildStationsIsDicts(infos: seq<StationInfo>, lines: map<string, Line>)
    requires AllColored(infos, lines)
    ensures BuildStations(infos, lines).value.stations == ToMap(StationPairs(infos, lines))
    ensures BuildStations(infos, lines).value.codeToName == ToMap(CodePairs(infos))
  {
    if |infos| > 0 {
      var n := |infos| - 1;
      var prefix := infos[..n];
      AllColoredPrefix(infos, lines, n);
      BuildStationsIsDicts(prefix, lines);
      var sp, cp := StationPairs(infos, lines), CodePairs(infos);
      assert sp[..n] == StationPairs(prefix, lines);
      assert cp[..n] == CodePairs(prefix);
      assert ToMap(sp) == ToMap(sp[..n])[sp[n].0 := sp[n].1];
      assert ToMap(cp) == ToMap(cp[..n])[cp[n].0 := cp[n].1];
    }
  }

  /** What the station loop produces: one record per station name, taken
      from the last station with that name; every code seen maps to the name
      of the last station with that code; and every mapped name has a
      station record keyed by it. */
  lemma BuildStationsTables(infos: seq<StationInfo>, lines: map<string, Line>)
    requires AllColored(infos, lines)
    ensures var t := BuildStations(infos, lines).value;
      && (forall i :: 0 <= i < |infos| ==> infos[i].name in t.stations && infos[i].code in t.codeToName)
      && (forall i :: 0 <= i < |infos| && (forall j :: i < j < |infos| ==> infos[j].name != infos[i].name) ==>
            t.stations[infos[i].name] == MakeStation(infos[i], StationColor(infos[i], lines).value))
      && (forall i :: 0 <= i < |infos| && (forall j :: i < j < |infos| ==> infos[j].code != infos[i].code) ==>
            t.codeToName[infos[i].code] == infos[i].name)
      && (forall n :: n in t.stations ==> t.stations[n].id == n && t.stations[n].name == n)
      && (forall c :: c in t.codeToName ==> t.codeToName[c] in t.stations)
  {
    BuildStationsIsDicts(infos, lines);
    StationDictSpec(infos, lines);
    CodeDictSpec(infos);
    var sp, cp := StationPairs(infos, lines), CodePairs(infos);
    ToMapValues(cp);
    forall c | c in ToMap(cp)
      ensures ToMap(cp)[c] in ToMap(sp)
    {
      var i :| IsLastFor(cp, i) && cp[i].0 == c && ToMap(cp)[c] == cp[i].1;
    }
  }

  lemma StationDictSpec(infos: seq<StationInfo>, lines: map<string, Line>)
    requires AllColored(infos, lines)
    ensures var m := ToMap(StationPairs(infos, lines));
      && (forall i :: 0 <= i < |infos| ==> infos[i].name in m)
      && (forall i :: 0 <= i < |infos| && (forall j :: i < j < |infos| ==> infos[j].name != infos[i].name) ==>
            m[infos[i].name] == MakeStation(infos[i], StationColor(infos[i], lines).value))
      && (forall n :: n in m ==> m[n].id == n && m[n].name == n)
  {
    var sp := StationPairs(infos, lines);
    assert forall i :: 0 <= i < |infos| ==> sp[i] == (infos[i].name, MakeStation(infos[i], StationColor(infos[i], lines).value));
    ToMapKeys(sp);
    ToMapValues(sp);
    forall i | 0 <= i < |infos| && (forall j :: i < j < |infos| ==> infos[j].name != infos[i].name)
      ensures ToMap(sp)[infos[i].name] == MakeStation(infos[i], StationColor(infos[i], lines).value)
    {
      assert IsLastFor(sp, i);
      ToMapLastWins(sp, i);
    }
  }

  lemma CodeDictSpec(infos: seq<StationInfo>)
    ensures var m := ToMap(CodePairs(infos));
      && (forall i :: 0 <= i < |infos| ==> infos[i].code in m)
      && (forall i :: 0 <= i < |infos| && (forall j :: i < j < |infos| ==> infos[j].code != infos[i].code) ==>
            m[infos[i].code] == infos[i].name)
  {
    var cp := CodePairs(infos);
    assert forall i :: 0 <= i < |infos| ==> cp[i] == (infos[i].code, infos[i].name);
    ToMapKeys(cp);
    forall i | 0 <= i < |infos| && (forall j :: i < j < |infos| ==> infos[j].code != infos[i].code)
      ensures ToMap(cp)[infos[i].code] == infos[i].name
    {
      assert IsLastFor(cp, i);
      ToMapLastWins(cp, i);
    }
  }

  /** The station colour rule as seen in the output: the surviving record for
      a name is purple when that station shares a platform, and otherwise has
      the colour of its first line. */
  lemma StationColorRule(infos: seq<StationInfo>, lines: map<string, Line>, i: int)
    requires AllColored(infos, lines)
    requires 0 <= i < |infos| && forall j :: i < j < |infos| ==> infos[j].name != infos[i].name
    ensures infos[i].name in BuildStations(infos, lines).value.stations
    ensures var st := BuildStations(infos, lines).value.stations[infos[i].name];
      && (infos[i].stationTogether1.Some? && infos[i].stationTogether1.value != "" ==> st.color == Purple)
      && (infos[i].stationTogether1.None? || infos[i].stationTogether1.value == "" ==>
            infos[i].lineCode1 in lines && st.color == lines[infos[i].lineCode1].color)
  {
    BuildStationsTables(infos, lines);
  }

  // ---------------------------------------------------------------------
  // Segments.

  /** `"%s_%s" % (a, b)`. */
  function SegmentId(a: string, b: string): string {
    a + "_" + b
  }

  /** Segment ids of codes without `_` split back into their two codes. */
  lemma SegmentIdInjective(a: string, b: string, c: string, d: string)
    requires '_' !in a && '_' !in b && '_' !in c && '_' !in d
    requires SegmentId(a, b) == SegmentId(c, d)
    ensures a == c && b == d
  {
    SplitAfter(a, '_', b);
    SplitAfter(c, '_', d);
    SplitWithout(b, '_');
    SplitWithout(d, '_');
    assert [a, b] == Split(SegmentId(a, b), '_') == [c, d];
  }

  /** The lookups one step of the walk makes all succeed. */
  predicate StepResolves(prev: string, p: PathStep, codeToName: map<string, string>, lines: map<string, Line>) {
    prev in codeToName && p.stationCode in codeToName && p.lineCode in lines
  }

  /** The `KeyError` of a step whose lookups do not all succeed: the first
      failing lookup, in the order the source makes them (the previous code,
      the current code, then the line). */
  function StepError(prev: string, p: PathStep, codeToName: map<string, string>, lines: map<string, Line>): FetchError {
    if prev !in codeToName then UnknownStation(prev)
    else if p.stationCode !in codeToName then UnknownStation(p.stationCode)
    else UnknownLine(p.lineCode)
  }

  /** The segment from station code `a` to station code `b` written at step `p`. */
  function MakeSegment(a: string, b: string, p: PathStep, codeToName: map<string, string>, lines: map<string, Line>): Segment
    requires a in codeToName && b in codeToName && p.lineCode in lines
  {
    Segment(SegmentId(a, b), codeToName[a], codeToName[b], SegmentLabel, p.distanceToPrev, p.lineCode, lines[p.lineCode].color)
  }

  /** One step of the path walk from `prev` to `p`: the forward segment and
      then the reverse one. */
  function Step(segs: map<string, Segment>, prev: string, p: PathStep,
                codeToName: map<string, string>, lines: map<string, Line>): (r: Result<map<string, Segment>, FetchError>)
    ensures r.Success? <==> StepResolves(prev, p, codeToName, lines)
    ensures r.Success? ==> r.value.Keys == segs.Keys + {SegmentId(prev, p.stationCode), SegmentId(p.stationCode, prev)}
    ensures r.Failure? ==> r.error == if prev !in codeToName then UnknownStation(prev)
                                      else if p.stationCode !in codeToName then UnknownStation(p.stationCode)
                                      else UnknownLine(p.lineCode)
  {
    var cur := p.stationCode;
    if prev !in codeToName then Failure(UnknownStation(prev))
    else if cur !in codeToName then Failure(UnknownStation(cur))
    else if p.lineCode !in lines then Failure(UnknownLine(p.lineCode))
    else
      var fwd := MakeSegment(prev, cur, p, codeToName, lines);
      var bwd := MakeSegment(cur, prev, p, codeToName, lines);
      Success(segs[fwd.id := fwd][bwd.id := bwd])
  }

  /** `t` is `s` travelled the other way: endpoints swapped, all else equal. */
  predicate Mirrors(s: Segment, t: Segment) {
    && s.from == t.to && s.to == t.from
    && s.tag == t.tag && s.distance == t.distance
    && s.lineCode == t.lineCode && s.color == t.color
  }

  /** What a step writes: the reverse record last, so it always survives;
      the forward record unless its id coincides with the reverse one's;
      every other entry untouched. */
  lemma StepWrites(segs: map<string, Segment>, prev: string, p: PathStep,
                   codeToName: map<string, string>, lines: map<string, Line>)
    requires StepResolves(prev, p, codeToName, lines)
    ensures var m := Step(segs, prev, p, codeToName, lines).value;
      var fwd, bwd := SegmentId(prev, p.stationCode), SegmentId(p.stationCode, prev);
      && m[bwd] == MakeSegment(p.stationCode, prev, p, codeToName, lines)
      && (fwd != bwd ==> m[fwd] == MakeSegment(prev, p.stationCode, p, codeToName, lines))
      && (forall k :: k in segs && k != fwd && k != bwd ==> m[k] == segs[k])
  {
  }

  /** A step's two records, for codes without `_` (so the two ids differ
      unless the codes are equal): the forward one runs from the name of
      `prev` to the name of the current station, the reverse one mirrors it,
      and both carry the step's distance, line code and the line's colour. */
  lemma StepRecords(segs: map<string, Segment>, prev: string, p: PathStep,
                    codeToName: map<string, string>, lines: map<string, Line>)
    requires StepResolves(prev, p, codeToName, lines)
    requires '_' !in prev && '_' !in p.stationCode
    ensures var m := Step(segs, prev, p, codeToName, lines).value;
      var fwd, bwd := SegmentId(prev, p.stationCode), SegmentId(p.stationCode, prev);
      && m[fwd].from == codeToName[prev] && m[fwd].to == codeToName[p.stationCode]
      && Mirrors(m[fwd], m[bwd])
      && m[fwd].tag == SegmentLabel && m[fwd].distance == p.distanceToPrev
      && m[fwd].lineCode == p.lineCode && m[fwd].color == lines[p.lineCode].color
  {
    StepWrites(segs, prev, p, codeToName, lines);
    if SegmentId(prev, p.stationCode) == SegmentId(p.stationCode, prev) {
      SegmentIdInjective(prev, p.stationCode, p.stationCode, prev);
    }
  }

  /** The ids a walk from `prev` along `rest` writes: two per step. */
  function NewIds(prev: string, rest: seq<PathStep>): set<string>
    decreases |rest|
  {
    if |rest| == 0 then {}
    else {SegmentId(prev, rest[0].stationCode), SegmentId(rest[0].stationCode, prev)} + NewIds(rest[0].stationCode, rest[1..])
  }

  /** A walk of n steps writes at most 2·n distinct ids. */
  lemma {:induction false} NewIdsBound(prev: string, rest: seq<PathStep>)
    ensures |NewIds(prev, rest)| <= 2 * |rest|
    decreases |rest|
  {
    if |rest| > 0 {
      NewIdsBound(rest[0].stationCode, rest[1..]);
    }
  }

  /** Every step of the walk can resolve its lookups. */
  predicate Resolves(prev: string, rest: seq<PathStep>, codeToName: map<string, string>, lines: map<string, Line>)
    decreases |rest|
  {
    |rest| == 0 ||
    (StepResolves(prev, rest[0], codeToName, lines) && Resolves(rest[0].stationCode, rest[1..], codeToName, lines))
  }

  /** The `KeyError` that ends a walk that does not resolve: that of its
      first failing step. */
  function WalkError(prev: string, rest: seq<PathStep>, codeToName: map<string, string>, lines: map<string, Line>): FetchError
    requires !Resolves(prev, rest, codeToName, lines)
    decreases |rest|
  {
    if !StepResolves(prev, rest[0], codeToName, lines) then StepError(prev, rest[0], codeToName, lines)
    else WalkError(rest[0].stationCode, rest[1..], codeToName, lines)
  }

  /** The inner loop over `paths[1:]`: `prev` starts at the given code and
      advances to each step's station. */
  function Walk(segs: map<string, Segment>, prev: string, rest: seq<PathStep>,
                codeToName: map<string, string>, lines: map<string, Line>): (r: Result<map<string, Segment>, FetchError>)
    ensures r.Success? <==> Resolves(prev, rest, codeToName, lines)
    ensures r.Success? ==> r.value.Keys == segs.Keys + NewIds(prev, rest)
    ensures r.Failure? ==> r.error == WalkError(prev, rest, codeToName, lines)
    decreases |rest|
  {
    if |rest| == 0 then Success(segs)
    else
      match Step(segs, prev, rest[0], codeToName, lines)
      case Failure(e) => Failure(e)
      case Success(s) => Walk(s, rest[0].stationCode, rest[1..], codeToName, lines)
  }

  /** Every segment's endpoints are among `names`. */
  ghost predicate EndpointsIn(segs: map<string, Segment>, names: set<string>) {
    forall k :: k in segs ==> segs[k].from in names && segs[k].to in names
  }

  /** A walk only ever writes endpoints that are names of known codes. */
  lemma {:induction false} WalkEndpoints(segs: map<string, Segment>, prev: string, rest: seq<PathStep>,
                                         codeToName: map<string, string>, lines: map<string, Line>)
    requires EndpointsIn(segs, codeToName.Values)
    requires Resolves(prev, rest, codeToName, lines)
    ensures EndpointsIn(Walk(segs, prev, rest, codeToName, lines).value, codeToName.Values)
    decreases |rest|
  {
    if |rest| > 0 {
      StepWrites(segs, prev, rest[0], codeToName, lines);
      var s := Step(segs, prev, rest[0], codeToName, lines).value;
      WalkEndpoints(s, rest[0].stationCode, rest[1..], codeToName, lines);
    }
  }

  /** `paths[1:]`. */
  function Tail(path: seq<PathStep>): seq<PathStep> {
    if |path| == 0 then [] else path[1..]
  }

  /** The segments of one line: walk its path from `StartStationCode`,
      skipping the path's first entry. */
  function LineSegments(segs: map<string, Segment>, line: Line, path: seq<PathStep>,
                        codeToName: map<string, string>, lines: map<string, Line>): (r: Result<map<string, Segment>, FetchError>)
    ensures r.Success? <==> Resolves(line.startStationCode, Tail(path), codeToName, lines)
    ensures r.Success? ==> r.value.Keys == segs.Keys + NewIds(line.startStationCode, Tail(path))
    ensures r.Failure? ==> r.error == WalkError(line.startStationCode, Tail(path), codeToName, lines)
  {
    Walk(segs, line.startStationCode, Tail(path), codeToName, lines)
  }

  /** A path of n stations adds at most 2·(n−1) ids, and none for an empty path. */
  lemma LineSegmentsBound(segs: map<string, Segment>, line: Line, path: seq<PathStep>,
                          codeToName: map<string, string>, lines: map<string, Line>)
    requires LineSegments(segs, line, path, codeToName, lines).Success?
    ensures var r := LineSegments(segs, line, path, codeToName, lines);
      |r.value.Keys - segs.Keys| <= if |path| == 0 then 0 else 2 * (|path| - 1)
  {
    var r := LineSegments(segs, line, path, codeToName, lines);
    NewIdsBound(line.startStationCode, Tail(path));
    SubsetCard(r.value.Keys - segs.Keys, NewIds(line.startStationCode, Tail(path)));
  }

  /** The path the API returns for a line, from its first to its last station. */
  function LinePath(line: Line, path: (string, string) -> seq<PathStep>): seq<PathStep> {
    path(line.startStationCode, line.endStationCode)
  }

  /** Every step of a line's walk can resolve its lookups. */
  predicate LineResolves(line: Line, path: (string, string) -> seq<PathStep>,
                         codeToName: map<string, string>, lines: map<string, Line>) {
    Resolves(line.startStationCode, Tail(LinePath(line, path)), codeToName, lines)
  }

  /** The `KeyError` that ends a line whose walk does not resolve. */
  function LineError(line: Line, path: (string, string) -> seq<PathStep>,
                     codeToName: map<string, string>, lines: map<string, Line>): FetchError
    requires !LineResolves(line, path, codeToName, lines)
  {
    WalkError(line.startStationCode, Tail(LinePath(line, path)), codeToName, lines)
  }

  /** The ids the walks of the lines in `order` write, taken together. */
  function AllNewIds(order: seq<string>, lines: map<string, Line>, path: (string, string) -> seq<PathStep>): set<string>
    requires forall i :: 0 <= i < |order| ==> order[i] in lines
    decreases |order|
  {
    if |order| == 0 then {}
    else
      var line := lines[order[0]];
      NewIds(line.startStationCode, Tail(LinePath(line, path))) + AllNewIds(order[1..], lines, path)
  }

  /** Line `order[i]` is the first whose walk does not resolve. */
  predicate FirstFailingLine(order: seq<string>, lines: map<string, Line>, path: (string, string) -> seq<PathStep>,
                             codeToName: map<string, string>, i: int)
    requires forall j :: 0 <= j < |order| ==> order[j] in lines
  {
    && 0 <= i < |order|
    && !LineResolves(lines[order[i]], path, codeToName, lines)
    && forall j :: 0 <= j < i ==> LineResolves(lines[order[j]], path, codeToName, lines)
  }

  /** Every line in `order` resolves exactly when the first one does and
      every line after it does. */
  lemma AllLinesResolveCons(order: seq<string>, lines: map<string, Line>, path: (string, string) -> seq<PathStep>,
                            codeToName: map<string, string>)
    requires 0 < |order| && forall j :: 0 <= j < |order| ==> order[j] in lines
    ensures (forall i :: 0 <= i < |order| ==> LineResolves(lines[order[i]], path, codeToName, lines))
        <==> LineResolves(lines[order[0]], path, codeToName, lines)
             && forall i :: 0 <= i < |order[1..]| ==> LineResolves(lines[order[1..][i]], path, codeToName, lines)
  {
    assert forall i :: 0 <= i < |order| - 1 ==> order[1..][i] == order[i + 1];
    if LineResolves(lines[order[0]], path, codeToName, lines)
       && forall i :: 0 <= i < |order[1..]| ==> LineResolves(lines[order[1..][i]], path, codeToName, lines)
    {
      forall i | 0 <= i < |order|
        ensures LineResolves(lines[order[i]], path, codeToName, lines)
      {
        if i > 0 {
          assert order[i] == order[1..][i - 1];
        }
      }
    }
  }

  /** When the first line resolves, the first failing line after it is the
      first failing line overall. */
  lemma FirstFailingLineCons(order: seq<string>, lines: map<string, Line>, path: (string, string) -> seq<PathStep>,
                             codeToName: map<string, string>, i: int)
    requires 0 < |order| && forall j :: 0 <= j < |order| ==> order[j] in lines
    requires LineResolves(lines[order[0]], path, codeToName, lines)
    requires FirstFailingLine(order[1..], lines, path, codeToName, i)
    ensures FirstFailingLine(order, lines, path, codeToName, i + 1) && order[1..][i] == order[i + 1]
  {
    assert forall j :: 0 <= j < i ==> order[1..][j] == order[j + 1];
  }

  /** The outer loop over `lines.values()`, in the dict's iteration order
      `order`: it succeeds exactly when every line's walk resolves, and then
      adds exactly the ids of all those walks. */
  function AllSegments(segs: map<string, Segment>, order: seq<string>, lines: map<string, Line>,
                       path: (string, string) -> seq<PathStep>, codeToName: map<string, string>): (r: Result<map<string, Segment>, FetchError>)
    requires forall i :: 0 <= i < |order| ==> order[i] in lines
    ensures r.Success? <==> forall i :: 0 <= i < |order| ==> LineResolves(lines[order[i]], path, codeToName, lines)
    ensures r.Success? ==> r.value.Keys == segs.Keys + AllNewIds(order, lines, path)
    ensures r.Failure? ==> exists i :: FirstFailingLine(order, lines, path, codeToName, i)
                                       && r.error == LineError(lines[order[i]], path, codeToName, lines)
    decreases |order|
  {
    if |order| == 0 then Success(segs)
    else
      var line := lines[order[0]];
      var first := LineSegments(segs, line, LinePath(line, path), codeToName, lines);
      AllLinesResolveCons(order, lines, path, codeToName);
      if first.Failure? then
        assert FirstFailingLine(order, lines, path, codeToName, 0);
        Failure(first.error)
      else
        var rest := AllSegments(first.value, order[1..], lines, path, codeToName);
        assert rest.Success? ==> rest.value.Keys == segs.Keys + AllNewIds(order, lines, path) by {
          var here := NewIds(line.startStationCode, Tail(LinePath(line, path)));
          assert AllNewIds(order, lines, path) == here + AllNewIds(order[1..], lines, path);
          assert first.value.Keys == segs.Keys + here;
        }
        assert rest.Failure? ==> exists i :: FirstFailingLine(order, lines, path, codeToName, i)
                                             && rest.error == LineError(lines[order[i]], path, codeToName, lines) by {
          if rest.Failure? {
            var i :| FirstFailingLine(order[1..], lines, path, codeToName, i)
                     && rest.error == LineError(lines[order[1..][i]], path, codeToName, lines);
            FirstFailingLineCons(order, lines, path, codeToName, i);
          }
        }
        rest
  }

  /** All segments of all lines have endpoints that are names of known codes. */
  lemma {:induction false} AllSegmentsEndpoints(segs: map<string, Segment>, order: seq<string>, lines: map<string, Line>,
                                                path: (string, string) -> seq<PathStep>, codeToName: map<string, string>)
    requires forall i :: 0 <= i < |order| ==> order[i] in lines
    requires EndpointsIn(segs, codeToName.Values)
    requires AllSegments(segs, order, lines, path, codeToName).Success?
    ensures EndpointsIn(AllSegments(segs, order, lines, path, codeToName).value, codeToName.Values)
    decreases |order|
  {
    if |order| > 0 {
      var line := lines[order[0]];
      var p := path(line.startStationCode, line.endStationCode);
      WalkEndpoints(segs, line.startStationCode, Tail(p), codeToName, lines);
      var s := LineSegments(segs, line, p, codeToName, lines).value;
      AllSegmentsEndpoints(s, order[1..], lines, path, codeToName);
    }
  }

  // ---------------------------------------------------------------------
  // Both directions of every segment.

  /** Every segment between two `_`-free codes has its reverse, mirrored. */
  ghost predicate Symmetric(segs: map<string, Segment>) {
    forall a, b :: '_' !in a && '_' !in b && SegmentId(a, b) in segs ==>
      SegmentId(b, a) in segs && Mirrors(segs[SegmentId(a, b)], segs[SegmentId(b, a)])
  }

  /** Codes along a walk contain no `_`. */
  ghost predicate PlainCodes(prev: string, rest: seq<PathStep>) {
    '_' !in prev && forall i :: 0 <= i < |rest| ==> '_' !in rest[i].stationCode
  }

  lemma StepKeepsSymmetry(segs: map<string, Segment>, prev: string, p: PathStep,
                          codeToName: map<string, string>, lines: map<string, Line>)
    requires Symmetric(segs)
    requires '_' !in prev && '_' !in p.stationCode
    requires Step(segs, prev, p, codeToName, lines).Success?
    ensures Symmetric(Step(segs, prev, p, codeToName, lines).value)
  {
    StepRecords(segs, prev, p, codeToName, lines);
    var m := Step(segs, prev, p, codeToName, lines).value;
    var cur := p.stationCode;
    var fwd, bwd := SegmentId(prev, cur), SegmentId(cur, prev);
    forall a, b | '_' !in a && '_' !in b && SegmentId(a, b) in m
      ensures SegmentId(b, a) in m && Mirrors(m[SegmentId(a, b)], m[SegmentId(b, a)])
    {
      if SegmentId(a, b) == fwd {
        SegmentIdInjective(a, b, prev, cur);
      } else if SegmentId(a, b) == bwd {
        SegmentIdInjective(a, b, cur, prev);
      } else {
        if SegmentId(b, a) == fwd {
          SegmentIdInjective(b, a, prev, cur);
        } else if SegmentId(b, a) == bwd {
          SegmentIdInjective(b, a, cur, prev);
        }
      }
    }
  }

  /** Walking a path keeps the segment collection symmetric: the reverse of
      every segment is present with swapped endpoints and the same distance,
      line and colour, even where later steps overwrite earlier ones. */
  lemma {:induction false} WalkKeepsSymmetry(segs: map<string, Segment>, prev: string, rest: seq<PathStep>,
                                             codeToName: map<string, string>, lines: map<string, Line>)
    requires Symmetric(segs)
    requires PlainCodes(prev, rest)
    requires Walk(segs, prev, rest, codeToName, lines).Success?
    ensures Symmetric(Walk(segs, prev, rest, codeToName, lines).value)
    decreases |rest|
  {
    if |rest| > 0 {
      StepKeepsSymmetry(segs, prev, rest[0], codeToName, lines);
      var s := Step(segs, prev, rest[0], codeToName, lines).value;
      WalkKeepsSymmetry(s, rest[0].stationCode, rest[1..], codeToName, lines);
    }
  }

  /** Over all lines: if no station code on any line's walk contains `_`,
      every segment written has its mirrored reverse. */
  lemma {:induction false} AllSegmentsKeepSymmetry(segs: map<string, Segment>, order: seq<string>, lines: map<string, Line>,
                                                   path: (string, string) -> seq<PathStep>, codeToName: map<string, string>)
    requires forall i :: 0 <= i < |order| ==> order[i] in lines
    requires forall i :: 0 <= i < |order| ==>
               var l := lines[order[i]];
               PlainCodes(l.startStationCode, Tail(path(l.startStationCode, l.endStationCode)))
    requires Symmetric(segs)
    requires AllSegments(segs, order, lines, path, codeToName).Success?
    ensures Symmetric(AllSegments(segs, order, lines, path, codeToName).value)
    decreases |order|
  {
    if |order| > 0 {
      var line := lines[order[0]];
      var p := path(line.startStationCode, line.endStationCode);
      WalkKeepsSymmetry(segs, line.startStationCode, Tail(p), codeToName, lines);
      var s := LineSegments(segs, line, p, codeToName, lines).value;
      assert forall i :: 0 <= i < |order| - 1 ==> order[1..][i] == order[i + 1];
      AllSegmentsKeepSymmetry(s, order[1..], lines, path, codeToName);
    }
  }

  // ---------------------------------------------------------------------
  // The whole run.

  /** What a run leaves behind. The node file is written from `stations`
      as soon as the station loop is done, before any path is fetched; the
      edge file is written from `segments` only when the segment loop
      completes, and otherwise the script ends with that loop's `KeyError`
      and no edge file. */
  datatype Output = Output(stations: map<string, Station>, segments: Result<map<string, Segment>, FetchError>)

  /** `order` lists every line code exactly once: it is the iteration order
      of the `lines` dict. */
  ghost predicate EnumeratesLines(order: seq<string>, infos: seq<LineInfo>) {
    && (forall i, j :: 0 <= i < j < |order| ==> order[i] != order[j])
    && (set c | c in order) == LineCodes(infos)
  }

  /** The line codes of the input: the keys of the `lines` dict. */
  function LineCodes(infos: seq<LineInfo>): set<string> {
    set l | l in infos :: l.lineCode
  }

  /** Every code the segment loop visits is a key of the `lines` dict. */
  lemma EnumeratedLinesExist(order: seq<string>, infos: seq<LineInfo>)
    requires EnumeratesLines(order, infos)
    ensures forall i :: 0 <= i < |order| ==> order[i] in BuildLines(infos)
  {
    BuildLinesSpec(infos);
    forall i | 0 <= i < |order|
      ensures order[i] in BuildLines(infos)
    {
      assert order[i] in (set c | c in order);
      assert order[i] in LineCodes(infos);
      var l :| l in infos && l.lineCode == order[i];
      var j :| 0 <= j < |infos| && infos[j] == l;
    }
  }

  /** What the segment loop over `order` produces: it succeeds exactly when
      every line's walk resolves, and then writes exactly those walks' ids;
      otherwise it fails with the walk error of the first line that does not
      resolve. */
  ghost predicate SegmentLoopOutcome(segments: Result<map<string, Segment>, FetchError>, order: seq<string>,
                                     lines: map<string, Line>, path: (string, string) -> seq<PathStep>,
                                     codeToName: map<string, string>)
    requires forall i :: 0 <= i < |order| ==> order[i] in lines
  {
    && (segments.Success? <==> forall i :: 0 <= i < |order| ==> LineResolves(lines[order[i]], path, codeToName, lines))
    && (segments.Success? ==> segments.value.Keys == AllNewIds(order, lines, path))
    && (segments.Failure? ==>
          exists i :: FirstFailingLine(order, lines, path, codeToName, i)
                      && segments.error == LineError(lines[order[i]], path, codeToName, lines))
  }

  /** Lines, then stations (and the node file), then segments (and the edge
      file). A `KeyError` in the station loop ends the run with no file
      written; one in the segment loop leaves the node file written. Every
      written segment's endpoints are station names with a station record,
      and every station record is keyed by its own id. */
  function Run(lineInfos: seq<LineInfo>, stationInfos: seq<StationInfo>, order: seq<string>,
               path: (string, string) -> seq<PathStep>): (r: Result<Output, FetchError>)
    requires EnumeratesLines(order, lineInfos)
    ensures forall i :: 0 <= i < |order| ==> order[i] in BuildLines(lineInfos)
    ensures r.Success? <==> AllColored(stationInfos, BuildLines(lineInfos))
    ensures r.Failure? ==> exists i :: 0 <= i < |stationInfos| && StationColor(stationInfos[i], BuildLines(lineInfos)) == Failure(r.error)
                                       && forall j :: 0 <= j < i ==> StationColor(stationInfos[j], BuildLines(lineInfos)).Success?
    ensures r.Success? ==> forall i :: 0 <= i < |stationInfos| ==> stationInfos[i].name in r.value.stations
    ensures r.Success? ==> r.value.stations == BuildStations(stationInfos, BuildLines(lineInfos)).value.stations
    ensures r.Success? ==>
              SegmentLoopOutcome(r.value.segments, order, BuildLines(lineInfos), path,
                                 BuildStations(stationInfos, BuildLines(lineInfos)).value.codeToName)
    ensures r.Success? ==>
              r.value.segments == AllSegments(map[], order, BuildLines(lineInfos), path,
                                              BuildStations(stationInfos, BuildLines(lineInfos)).value.codeToName)
    ensures r.Success? ==> forall n :: n in r.value.stations ==> r.value.stations[n].id == n
    ensures r.Success? && r.value.segments.Success? ==>
              forall k :: k in r.value.segments.value ==>
                r.value.segments.value[k].from in r.value.stations && r.value.segments.value[k].to in r.value.stations
  {
    var lines := BuildLines(lineInfos);
    BuildLinesSpec(lineInfos);
    EnumeratedLinesExist(order, lineInfos);
    match BuildStations(stationInfos, lines)
    case Failure(e) => Failure(e)
    case Success(t) =>
      BuildStationsTables(stationInfos, lines);
      var segs := AllSegments(map[], order, lines, path, t.codeToName);
      assert segs.Success? ==> EndpointsIn(segs.value, t.codeToName.Values) by {
        if segs.Success? {
          AllSegmentsEndpoints(map[], order, lines, path, t.codeToName);
        }
      }
      assert forall n :: n in t.codeToName.Values ==> n in t.stations;
      Success(Output(t.stations, segs))
  }

  // ---------------------------------------------------------------------
  // CSV rows.

  /** The node file's rows, one per station: the id, label, name,
      latitude, longitude and colour, in header order. */
  function NodeRows(stations: map<string, Station>): (rows: map<string, seq<string>>)
    ensures rows.Keys == stations.Keys
    ensures forall n :: n in stations ==>
              var s := stations[n];
              rows[n] == [s.id, s.tag, s.name, s.lat, s.lon, s.color]
  {
    forall n | n in stations {
      NodeRowShape(stations[n]);
    }
    map n | n in stations :: Csv.Write(NodeHeader, stations[n].Fields())
  }

  /** The edge file's rows, one per segment: the id, source, target, label,
      distance and colour, in header order. The segment's line code is not
      among them. */
  function EdgeRows(segments: map<string, Segment>): (rows: map<string, seq<string>>)
    ensures rows.Keys == segments.Keys
    ensures forall k :: k in segments ==>
              var s := segments[k];
              rows[k] == [s.id, s.from, s.to, s.tag, s.distance, s.color]
  {
    forall k | k in segments {
      EdgeRowShape(segments[k]);
    }
    map k | k in segments :: Csv.Write(EdgeHeader, segments[k].Fields())
  }

  /** A written station row holds exactly the header's columns, in header
      order, with the record's values. */
  lemma NodeRowShape(s: Station)
    ensures Csv.Write(NodeHeader, s.Fields()) == [s.id, s.tag, s.name, s.lat, s.lon, s.color]
  {
  }

  /** A written segment row holds exactly the header's columns; the line code
      the record carries is dropped, so no reader ever sees that column. */
  lemma EdgeRowShape(s: Segment)
    ensures Csv.Write(EdgeHeader, s.Fields()) == [s.id, s.from, s.to, s.tag, s.distance, s.color]
    ensures Csv.Get(Csv.Read(EdgeHeader, Csv.Write(EdgeHeader, s.Fields())), "linecode:string").None?
  {
    Csv.ReadWrite(EdgeHeader, s.Fields(), "linecode:string");
  }
}

=== FILE: flatten.dfy ===
/** The JSON flattener of wmata2csv.py (`flatten_dict` / `flatten_list`):
    a nested value of objects, lists and scalars becomes a flat dict from
    dotted column names to scalars. */
module Flatten {
  import opened Common
  import opened Strings

  /** A JSON scalar; numbers are kept as their text. */
  datatype Scalar = Str(s: string) | Number(text: string) | Bool(b: bool) | Null

  datatype Json = Object(members: seq<Member>) | Array(items: seq<Json>) | Leaf(scalar: Scalar)

  /** One key/value pair of an object, in the dict's iteration order. */
  datatype Member = Member(key: string, value: Json)

  /** The column of an object member: the parent name, `.`, the key; or the
      bare key when the parent name is empty (Python treats `''` as false). */
  function DictColumn(parent: string, key: string): string {
    if parent != "" then parent + "." + key else key
  }

  /** The column of the list item at `index`: the dot is always inserted. */
  function ListColumn(parent: string, index: nat): string {
    parent + "." + NatToString(index)
  }

  /** Column `k` is `col` itself or lies beneath it (`col.` followed by more). */
  predicate Extends(k: string, col: string) {
    col <= k && (|k| == |col| || k[|col|] == '.')
  }

  /** What one value contributes under column `col`: a nested object or list
      is flattened beneath it, a scalar is stored under `col` itself. */
  function Cell(v: Json, col: string): (r: map<string, Json>)
    ensures forall k :: k in r ==> r[k].Leaf?
    ensures col != "" ==> forall k :: k in r ==> Extends(k, col)
    decreases v
  {
    match v
    case Object(ms) => FlattenDict(ms, col)
    case Array(xs) => FlattenList(xs, col)
    case Leaf(_) => map[col := v]
  }

  /** `flatten_dict(d, parent_key)`: members in iteration order, each one's
      columns overriding any equal columns of earlier members. */
  function FlattenDict(ms: seq<Member>, parent: string): (r: map<string, Json>)
    ensures forall k :: k in r ==> r[k].Leaf?
    ensures parent != "" ==> forall k :: k in r ==> parent + "." <= k
    decreases ms
  {
    if |ms| == 0 then map[]
    else
      var m := ms[|ms| - 1];
      assert m.value < m;
      FlattenDict(ms[..|ms| - 1], parent) + Cell(m.value, DictColumn(parent, m.key))
  }

  /** `flatten_list(the_list, parent_key)`: item `i` is flattened under
      `parent.i`. */
  function FlattenList(items: seq<Json>, parent: string): (r: map<string, Json>)
    ensures forall k :: k in r ==> r[k].Leaf?
    ensures forall k :: k in r ==> parent + "." <= k
    decreases items
  {
    if |items| == 0 then map[]
    else
      FlattenList(items[..|items| - 1], parent) + Cell(items[|items| - 1], ListColumn(parent, |items| - 1))
  }

  // ---------------------------------------------------------------------
  // Reference: the stream of (column, scalar) pairs, one per scalar leaf,
  // before any collision is resolved.

  function Leaves(v: Json, col: string): (ps: seq<(string, Json)>)
    decreases v
  {
    match v
    case Object(ms) => DictLeaves(ms, col)
    case Array(xs) => ListLeaves(xs, col)
    case Leaf(_) => [(col, v)]
  }

  function DictLeaves(ms: seq<Member>, parent: string): (ps: seq<(string, Json)>)
    decreases ms
  {
    if |ms| == 0 then []
    else
      var m := ms[|ms| - 1];
      assert m.value < m;
      DictLeaves(ms[..|ms| - 1], parent) + Leaves(m.value, DictColumn(parent, m.key))
  }

  function ListLeaves(items: seq<Json>, parent: string): (ps: seq<(string, Json)>)
    decreases items
  {
    if |items| == 0 then []
    else ListLeaves(items[..|items| - 1], parent) + Leaves(items[|items| - 1], ListColumn(parent, |items| - 1))
  }

  /** Every pair of the leaf stream carries a scalar: no object or list value survives. */
  lemma {:induction false} LeavesAreScalars(v: Json, col: string)
    ensures forall i :: 0 <= i < |Leaves(v, col)| ==> Leaves(v, col)[i].1.Leaf?
    decreases v, 1
  {
    match v
    case Object(ms) => DictLeavesAreScalars(ms, col);
    case Array(xs) => ListLeavesAreScalars(xs, col);
    case Leaf(_) =>
  }

  lemma {:induction false} DictLeavesAreScalars(ms: seq<Member>, parent: string)
    ensures forall i :: 0 <= i < |DictLeaves(ms, parent)| ==> DictLeaves(ms, parent)[i].1.Leaf?
    decreases ms, 0
  {
    if |ms| > 0 {
      var m := ms[|ms| - 1];
      assert m.value < m;
      DictLeavesAreScalars(ms[..|ms| - 1], parent);
      LeavesAreScalars(m.value, DictColumn(parent, m.key));
    }
  }

  lemma {:induction false} ListLeavesAreScalars(items: seq<Json>, parent: string)
    ensures forall i :: 0 <= i < |ListLeaves(items, parent)| ==> ListLeaves(items, parent)[i].1.Leaf?
    decreases items, 0
  {
    if |items| > 0 {
      ListLeavesAreScalars(items[..|items| - 1], parent);
      LeavesAreScalars(items[|items| - 1], ListColumn(parent, |items| - 1));
    }
  }

  /** The flattened dict is the leaf stream read as a dict: a later leaf
      with an already-used column overwrites the earlier one. */
  lemma {:induction false} CellIsLastWins(v: Json, col: string)
    ensures Cell(v, col) == ToMap(Leaves(v, col))
    decreases v, 1
  {
    match v
    case Object(ms) => DictIsLastWins(ms, col);
    case Array(xs) => ListIsLastWins(xs, col);
    case Leaf(_) =>
      assert ToMap(Leaves(v, col)) == ToMap([])[col := v];
  }

  lemma {:induction false} DictIsLastWins(ms: seq<Member>, parent: string)
    ensures FlattenDict(ms, parent) == ToMap(DictLeaves(ms, parent))
    decreases ms, 0
  {
    if |ms| > 0 {
      var m := ms[|ms| - 1];
      assert m.value < m;
      DictIsLastWins(ms[..|ms| - 1], parent);
      CellIsLastWins(m.value, DictColumn(parent, m.key));
      ToMapAppend(DictLeaves(ms[..|ms| - 1], parent), Leaves(m.value, DictColumn(parent, m.key)));
    }
  }

  lemma {:induction false} ListIsLastWins(items: seq<Json>, parent: string)
    ensures FlattenList(items, parent) == ToMap(ListLeaves(items, parent))
    decreases items, 0
  {
    if |items| > 0 {
      var n := |items| - 1;
      ListIsLastWins(items[..n], parent);
      CellIsLastWins(items[n], ListColumn(parent, n));
      ToMapAppend(ListLeaves(items[..n], parent), Leaves(items[n], ListColumn(parent, n)));
    }
  }

  /** Collisions only ever merge columns: the flattened dict has at most one
      entry per scalar leaf, and its columns are exactly the leaves' columns. */
  lemma AtMostOneColumnPerLeaf(ms: seq<Member>, parent: string)
    ensures |FlattenDict(ms, parent)| <= |DictLeaves(ms, parent)|
    ensures forall i :: 0 <= i < |DictLeaves(ms, parent)| ==> DictLeaves(ms, parent)[i].0 in FlattenDict(ms, parent)
    ensures forall k :: k in FlattenDict(ms, parent) ==>
              exists i :: 0 <= i < |DictLeaves(ms, parent)| && DictLeaves(ms, parent)[i].0 == k
  {
    DictIsLastWins(ms, parent);
    ToMapKeys(DictLeaves(ms, parent));
  }

  /** The same for a list: the flattened list has at most one entry per
      scalar leaf of its items, and its columns are exactly those leaves'
      columns. */
  lemma ListAtMostOneColumnPerLeaf(items: seq<Json>, parent: string)
    ensures |FlattenList(items, parent)| <= |ListLeaves(items, parent)|
    ensures forall i :: 0 <= i < |ListLeaves(items, parent)| ==> ListLeaves(items, parent)[i].0 in FlattenList(items, parent)
    ensures forall k :: k in FlattenList(items, parent) ==>
              exists i :: 0 <= i < |ListLeaves(items, parent)| && ListLeaves(items, parent)[i].0 == k
  {
    ListIsLastWins(items, parent);
    ToMapKeys(ListLeaves(items, parent));
  }

  /** The leaf stream of a concatenation of members is the concatenation of
      their streams. */
  lemma {:induction false} DictLeavesAppend(a: seq<Member>, b: seq<Member>, parent: string)
    ensures DictLeaves(a + b, parent) == DictLeaves(a, parent) + DictLeaves(b, parent)
    decreases |b|
  {
    if |b| > 0 {
      var n := |b| - 1;
      assert (a + b)[..|a + b| - 1] == a + b[..n];
      assert (a + b)[|a + b| - 1] == b[n];
      DictLeavesAppend(a, b[..n], parent);
    } else {
      assert a + b == a;
    }
  }

  /** An empty nested object or list contributes no column: dropping such a
      member leaves the flattened dict unchanged. */
  lemma EmptyContainerContributesNothing(ms: seq<Member>, parent: string, i: int)
    requires 0 <= i < |ms|
    requires ms[i].value == Object([]) || ms[i].value == Array([])
    ensures FlattenDict(ms[..i] + ms[i + 1..], parent) == FlattenDict(ms, parent)
  {
    var a, one, b := ms[..i], [ms[i]], ms[i + 1..];
    assert ms == a + one + b;
    assert one[..0] == [];
    assert DictLeaves(one, parent) == [] by {
      assert Leaves(ms[i].value, DictColumn(parent, ms[i].key)) == [];
    }
    DictLeavesAppend(a + one, b, parent);
    DictLeavesAppend(a, one, parent);
    DictLeavesAppend(a, b, parent);
    assert DictLeaves(a + one, parent) == DictLeaves(a, parent);
    DictIsLastWins(ms, parent);
    DictIsLastWins(a + b, parent);
  }

  // ---------------------------------------------------------------------
  // Column naming.

  /** Each column contributed by member `i` appears in the result; when the
      member is the last one its values are the result's. With an empty
      parent a scalar member's column is its own key. */
  lemma {:induction false} DictMemberKept(ms: seq<Member>, parent: string, i: int)
    requires 0 <= i < |ms|
    ensures forall k :: k in Cell(ms[i].value, DictColumn(parent, ms[i].key)) ==> k in FlattenDict(ms, parent)
    ensures i == |ms| - 1 ==>
              forall k :: k in Cell(ms[i].value, DictColumn(parent, ms[i].key)) ==>
                FlattenDict(ms, parent)[k] == Cell(ms[i].value, DictColumn(parent, ms[i].key))[k]
    ensures parent == "" && ms[i].value.Leaf? ==> ms[i].key in FlattenDict(ms, parent)
  {
    if i < |ms| - 1 {
      assert ms[..|ms| - 1][i] == ms[i];
      DictMemberKept(ms[..|ms| - 1], parent, i);
    }
  }

  /** The digits after `parent.` identify the list item a column belongs to. */
  lemma ListColumnsDisjoint(parent: string, i: nat, j: nat, k: string)
    requires i != j
    requires Extends(k, ListColumn(parent, i))
    ensures !Extends(k, ListColumn(parent, j))
  {
    if Extends(k, ListColumn(parent, j)) {
      var ci, cj := ListColumn(parent, i), ListColumn(parent, j);
      var di, dj := NatToString(i), NatToString(j);
      var p := |parent| + 1;
      if |ci| == |cj| {
        assert ci == k[..|ci|] == cj;
        assert di == ci[p..] == cj[p..] == dj;
        NatToStringInjective(i, j);
      }
    }
  }

  /** No later item can overwrite the columns of list item `i`: they all
      survive with their values, and a scalar item sits at `parent.i`. */
  lemma {:induction false} ListItemKept(items: seq<Json>, parent: string, i: nat)
    requires i < |items|
    ensures forall k :: k in Cell(items[i], ListColumn(parent, i)) ==>
              k in FlattenList(items, parent) &&
              FlattenList(items, parent)[k] == Cell(items[i], ListColumn(parent, i))[k]
    ensures items[i].Leaf? ==> FlattenList(items, parent)[ListColumn(parent, i)] == items[i]
  {
    var n := |items| - 1;
    var own := Cell(items[i], ListColumn(parent, i));
    if i < n {
      assert items[..n][i] == items[i];
      ListItemKept(items[..n], parent, i);
      var last := Cell(items[n], ListColumn(parent, n));
      forall k | k in own
        ensures k !in last
      {
        if k in last {
          ListColumnsDisjoint(parent, i, n, k);
        }
      }
    }
  }
}

=== FILE: loading.dfy ===
/** What the two loaders (csv2neptune.py and csv2neo4j.py) share: the id
    transform, the lookup of a row's column, and the single pass that sends
    one command per node row and then one per edge row, stopping at the
    first row that raises. */
module Loading {
  import opened Common
  import Csv

  /** `id_transform`: prefix an identifier with `id_` so that downstream
      tools treat it as a string. */
  function IdTransform(original: string): (r: string)
    ensures |r| == |original| + 3
    ensures r[..3] == "id_"
  {
    "id_" + original
  }

  /** The transform loses nothing: the original follows the prefix. */
  lemma IdTransformRecovers(original: string)
    ensures IdTransform(original)[3..] == original
  {
  }

  /** Distinct identifiers stay distinct. */
  lemma IdTransformInjective(x: string, y: string)
    requires IdTransform(x) == IdTransform(y)
    ensures x == y
  {
    assert x == IdTransform(x)[3..] == IdTransform(y)[3..] == y;
  }

  /** Why a row could not be turned into a command: a `KeyError` for a
      missing column, or a `ValueError` from unpacking a property column
      name that does not split into exactly two parts on `:`. */
  datatype LoadError = MissingColumn(column: string) | BadPropertyColumn(column: string)

  /** `row[column]`. */
  function Column(row: Csv.Row, column: string): (r: Result<string, LoadError>)
    ensures r.Failure? <==> forall i :: 0 <= i < |row| ==> row[i].0 != column
    ensures r.Failure? ==> r.error == MissingColumn(column)
    ensures r.Success? ==> exists i :: 0 <= i < |row| && row[i] == (column, r.value)
  {
    match Csv.Get(row, column)
    case Some(v) => GetFound(row, column); Success(v)
    case None => Failure(MissingColumn(column))
  }

  /** A found cell is the cell of some pair of the row. */
  lemma {:induction false} GetFound(row: Csv.Row, column: string)
    requires Csv.Get(row, column).Some?
    ensures exists i :: 0 <= i < |row| && row[i] == (column, Csv.Get(row, column).value)
  {
    if row[|row| - 1].0 != column {
      GetFound(row[..|row| - 1], column);
      var i :| 0 <= i < |row| - 1 && row[..|row| - 1][i] == (column, Csv.Get(row, column).value);
      assert row[i] == row[..|row| - 1][i];
    }
  }

  /** What a loader sent before it stopped, and the error that stopped it. */
  datatype Run<C> = Run(sent: seq<C>, error: Option<LoadError>)

  /** One command per row, in file order; the first row that cannot be
      converted ends the pass without sending anything for it. */
  function SendAll<C>(rows: seq<Csv.Row>, convert: Csv.Row -> Result<C, LoadError>): (r: Run<C>)
    ensures |r.sent| <= |rows|
    ensures forall i :: 0 <= i < |r.sent| ==> convert(rows[i]) == Success(r.sent[i])
    ensures r.error.None? ==> |r.sent| == |rows|
    ensures r.error.Some? ==> |r.sent| < |rows| && convert(rows[|r.sent|]) == Failure(r.error.value)
  {
    if |rows| == 0 then Run([], None)
    else
      match convert(rows[0])
      case Failure(e) => Run([], Some(e))
      case Success(c) =>
        var rest := SendAll(rows[1..], convert);
        Run([c] + rest.sent, rest.error)
  }

  /** Node rows first, then edge rows; a failing node row means no edge row
      is ever sent. */
  function Load<C>(nodes: seq<Csv.Row>, edges: seq<Csv.Row>,
                   vertex: Csv.Row -> Result<C, LoadError>, edge: Csv.Row -> Result<C, LoadError>): (r: Run<C>)
    ensures r.error.None? <==>
              (forall i :: 0 <= i < |nodes| ==> vertex(nodes[i]).Success?) &&
              (forall j :: 0 <= j < |edges| ==> edge(edges[j]).Success?)
    ensures r.error.None? ==> |r.sent| == |nodes| + |edges|
    ensures forall i :: 0 <= i < |nodes| && i < |r.sent| ==> vertex(nodes[i]) == Success(r.sent[i])
    ensures forall j :: 0 <= j < |edges| && |nodes| + j < |r.sent| ==> edge(edges[j]) == Success(r.sent[|nodes| + j])
    ensures |r.sent| < |nodes| ==> r.error.Some? && vertex(nodes[|r.sent|]) == Failure(r.error.value)
    ensures r.error.Some? && |r.sent| >= |nodes| ==>
              |r.sent| < |nodes| + |edges| && edge(edges[|r.sent| - |nodes|]) == Failure(r.error.value)
  {
    var n := SendAll(nodes, vertex);
    if n.error.Some? then n
    else
      var e := SendAll(edges, edge);
      Run(n.sent + e.sent, e.error)
  }
}

=== FILE: neo4j.dfy ===
/** csv2neo4j.py: each node row becomes a Cypher `CREATE` statement and each
    edge row a `MATCH ... CREATE` statement, sent in file order, nodes before
    edges. The Bolt session is left out: a loader run is the sequence of
    statement strings it would run. Cells are spliced into the text as they
    are, with no escaping. */
module Neo4j {
  import opened Common
  import opened Strings
  import Csv
  import opened Loading

  /** The node template: label `Station`, properties `id`, `name`, `color`. */
  function CreateNode(id: string, name: string, color: string): string {
    "CREATE (n:Station {id: \"" + id + "\", name: \"" + name + "\", color:\"" + color + "\"})"
  }

  /** The edge template: match both stations by id, link them with `SEGMENT`. */
  function MatchCreateEdge(fromId: string, toId: string): string {
    "MATCH (a:Station), (b:Station) WHERE a.id = \"" + fromId + "\" AND b.id = \"" + toId + "\" CREATE (a)-[r:SEGMENT]->(b)"
  }

  /** The statement for one node row. Only `~id`, `name:string` and
      `color:string` are read; the label is always `Station`. */
  function NodeStatement(row: Csv.Row): (r: Result<string, LoadError>)
    ensures r.Success? <==>
      Column(row, "~id").Success? && Column(row, "name:string").Success? && Column(row, "color:string").Success?
    ensures r.Success? ==>
      r.value == CreateNode(IdTransform(Column(row, "~id").value), Column(row, "name:string").value, Column(row, "color:string").value)
    ensures r.Failure? ==> r.error == if Column(row, "~id").Failure? then MissingColumn("~id")
                                      else if Column(row, "name:string").Failure? then MissingColumn("name:string")
                                      else MissingColumn("color:string")
  {
    var id :- Column(row, "~id");
    var name :- Column(row, "name:string");
    var color :- Column(row, "color:string");
    Success(CreateNode(IdTransform(id), name, color))
  }

  /** The statement for one edge row. `~id` is looked up (and must exist)
      but its transformed value is never placed in the statement. */
  function EdgeStatement(row: Csv.Row): (r: Result<string, LoadError>)
    ensures r.Success? <==>
      Column(row, "~id").Success? && Column(row, "~from").Success? && Column(row, "~to").Success?
    ensures r.Success? ==>
      r.value == MatchCreateEdge(IdTransform(Column(row, "~from").value), IdTransform(Column(row, "~to").value))
    ensures r.Failure? ==> r.error == if Column(row, "~id").Failure? then MissingColumn("~id")
                                      else if Column(row, "~from").Failure? then MissingColumn("~from")
                                      else MissingColumn("~to")
  {
    var id :- Column(row, "~id");
    var from :- Column(row, "~from");
    var to :- Column(row, "~to");
    var edgeId := IdTransform(id);
    Success(MatchCreateEdge(IdTransform(from), IdTransform(to)))
  }

  /** `main`: the vertex file, then the edge file. The run completes exactly
      when every row has its columns, and a run stopped in the vertex file
      sends no edge statement. */
  function Load(nodes: seq<Csv.Row>, edges: seq<Csv.Row>): (r: Run<string>)
    ensures |r.sent| <= |nodes| + |edges|
    ensures r.error.None? ==> |r.sent| == |nodes| + |edges|
    ensures r.error.None? <==>
              (forall i :: 0 <= i < |nodes| ==> NodeStatement(nodes[i]).Success?) &&
              (forall j :: 0 <= j < |edges| ==> EdgeStatement(edges[j]).Success?)
    ensures forall i :: 0 <= i < |nodes| && i < |r.sent| ==> NodeStatement(nodes[i]) == Success(r.sent[i])
    ensures forall j :: 0 <= j < |edges| && |nodes| + j < |r.sent| ==> EdgeStatement(edges[j]) == Success(r.sent[|nodes| + j])
    ensures |r.sent| < |nodes| ==> r.error.Some? && NodeStatement(nodes[|r.sent|]) == Failure(r.error.value)
    ensures r.error.Some? && |r.sent| >= |nodes| ==>
              |r.sent| < |nodes| + |edges| && EdgeStatement(edges[|r.sent| - |nodes|]) == Failure(r.error.value)
  {
    Loading.Load(nodes, edges, NodeStatement, EdgeStatement)
  }

  // ---------------------------------------------------------------------
  // Reading the spliced values back.

  /** The text between successive pairs of `"`: the string literals of a
      statement whose spliced values contain no `"`. */
  function Quoted(s: string): (r: seq<string>)
  {
    OddParts(Split(s, '"'))
  }

  function OddParts(parts: seq<string>): (r: seq<string>)
    decreases |parts|
  {
    if |parts| < 2 then [] else [parts[1]] + OddParts(parts[2..])
  }

  /** The node statement's literals are, in order, the transformed id, the
      name and the colour, provided none of them contains `"`. */
  lemma CreateNodeQuoted(id: string, name: string, color: string)
    requires '"' !in id && '"' !in name && '"' !in color
    ensures Quoted(CreateNode(id, name, color)) == [id, name, color]
  {
    CreateNodeParts(id, name, color);
    NodeTextUnquoted();
    QuotedThree("CREATE (n:Station {id: ", id, ", name: ", name, ", color:", color, "})");
  }

  /** The node template with its quote characters split out. Stated once over
      variable values, because unfolding the literal template at each use
      costs the solver more than it can spend. */
  lemma CreateNodeParts(id: string, name: string, color: string)
    ensures CreateNode(id, name, color)
         == "CREATE (n:Station {id: " + ['"'] + (id + ['"'] + (", name: " + ['"'] + (name + ['"'] + (", color:" + ['"'] + (color + ['"'] + "})")))))
  {
  }

  /** The node template's fixed text holds no `"`; a separate lemma for the
      same reason as CreateNodeParts. */
  lemma NodeTextUnquoted()
    ensures '"' !in "CREATE (n:Station {id: " && '"' !in ", name: " && '"' !in ", color:" && '"' !in "})"
  {
  }

  /** The edge statement's literals are, in order, the transformed source id
      and the transformed target id, provided neither contains `"`. */
  lemma MatchCreateEdgeQuoted(fromId: string, toId: string)
    requires '"' !in fromId && '"' !in toId
    ensures Quoted(MatchCreateEdge(fromId, toId)) == [fromId, toId]
  {
    MatchCreateEdgeParts(fromId, toId);
    EdgeTextUnquoted();
    QuotedTwo("MATCH (a:Station), (b:Station) WHERE a.id = ", fromId, " AND b.id = ", toId, " CREATE (a)-[r:SEGMENT]->(b)");
  }

  /** The edge template with its quote characters split out; see
      CreateNodeParts for why it is a lemma of its own. */
  lemma MatchCreateEdgeParts(fromId: string, toId: string)
    ensures MatchCreateEdge(fromId, toId)
         == "MATCH (a:Station), (b:Station) WHERE a.id = " + ['"'] + (fromId + ['"'] + (" AND b.id = " + ['"'] + (toId + ['"'] + " CREATE (a)-[r:SEGMENT]->(b)")))
  {
  }

  /** The edge template's fixed text holds no `"`. */
  lemma EdgeTextUnquoted()
    ensures '"' !in "MATCH (a:Station), (b:Station) WHERE a.id = " && '"' !in " AND b.id = " && '"' !in " CREATE (a)-[r:SEGMENT]->(b)"
  {
  }

  /** Text, literal, text, literal, text, all free of `"`, joined by `"`:
      the literals come back out. */
  lemma QuotedTwo(p0: string, a: string, p2: string, b: string, p4: string)
    requires '"' !in p0 && '"' !in a && '"' !in p2 && '"' !in b && '"' !in p4
    ensures Quoted(p0 + ['"'] + (a + ['"'] + (p2 + ['"'] + (b + ['"'] + p4)))) == [a, b]
  {
    var q := '"';
    var t3 := b + [q] + p4;
    var t1 := a + [q] + (p2 + [q] + t3);
    SplitWithout(p4, q);
    SplitAfter(b, q, p4);
    SplitAfter(p2, q, t3);
    SplitAfter(a, q, p2 + [q] + t3);
    SplitAfter(p0, q, t1);
    var parts := Split(p0 + [q] + t1, q);
    assert parts == [p0, a, p2, b, p4];
    assert parts[2..] == [p2, b, p4];
    assert parts[2..][2..] == [p4];
    assert OddParts(parts[2..]) == [b];
    assert OddParts(parts) == [a, b];
  }

  /** The same with three literals. */
  lemma QuotedThree(p0: string, a: string, p2: string, b: string, p4: string, c: string, p6: string)
    requires '"' !in p0 && '"' !in a && '"' !in p2 && '"' !in b && '"' !in p4 && '"' !in c && '"' !in p6
    ensures Quoted(p0 + ['"'] + (a + ['"'] + (p2 + ['"'] + (b + ['"'] + (p4 + ['"'] + (c + ['"'] + p6)))))) == [a, b, c]
  {
    var q := '"';
    var t5 := c + [q] + p6;
    var t3 := b + [q] + (p4 + [q] + t5);
    var t1 := a + [q] + (p2 + [q] + t3);
    SplitWithout(p6, q);
    SplitAfter(c, q, p6);
    SplitAfter(p4, q, t5);
    SplitAfter(b, q, p4 + [q] + t5);
    SplitAfter(p2, q, t3);
    SplitAfter(a, q, p2 + [q] + t3);
    SplitAfter(p0, q, t1);
    var parts := Split(p0 + [q] + t1, q);
    assert parts == [p0, a, p2, b, p4, c, p6];
    assert parts[2..] == [p2, b, p4, c, p6];
    assert parts[2..][2..] == [p4, c, p6];
    assert parts[2..][2..][2..] == [p6];
    assert OddParts(parts[2..][2..]) == [c];
    assert OddParts(parts[2..]) == [b, c];
    assert OddParts(parts) == [a, b, c];
  }

  /** Without escaping, different cells can produce the same statement: a
      name carrying `", color:"` impersonates the colour field. */
  lemma SplicingIsAmbiguous()
    ensures CreateNode("id_A01", "a\", color:\"b", "c") == CreateNode("id_A01", "a", "b\", color:\"c")
  {
  }

  /** A node statement depends on nothing but `~id`, `name:string` and
      `color:string`: `~label`, `lat:double` and `lon:double` never matter. */
  lemma NodeStatementIgnoresOtherColumns(a: Csv.Row, b: Csv.Row)
    requires Column(a, "~id") == Column(b, "~id")
    requires Column(a, "name:string") == Column(b, "name:string")
    requires Column(a, "color:string") == Column(b, "color:string")
    ensures NodeStatement(a) == NodeStatement(b)
  {
  }

  /** An edge statement depends on nothing but `~from` and `~to`, once `~id`
      is present: the edge id never reaches the database. */
  lemma EdgeStatementIgnoresId(a: Csv.Row, b: Csv.Row)
    requires Column(a, "~id").Success? && Column(b, "~id").Success?
    requires Column(a, "~from") == Column(b, "~from")
    requires Column(a, "~to") == Column(b, "~to")
    ensures EdgeStatement(a) == EdgeStatement(b)
  {
  }

  /** A complete run sends one statement per node row, then one per edge
      row, each in file order; an edge whose `~from` names a node's `~id`
      matches on exactly the id that node was created with. */
  lemma StatementsInFileOrder(nodes: seq<Csv.Row>, edges: seq<Csv.Row>, i: int, j: int)
    requires Load(nodes, edges).error.None?
    requires 0 <= i < |nodes| && 0 <= j < |edges|
    requires Column(edges[j], "~from") == Column(nodes[i], "~id")
    ensures var sent := Load(nodes, edges).sent;
      && |sent| == |nodes| + |edges|
      && Success(sent[i]) == NodeStatement(nodes[i])
      && Success(sent[|nodes| + j]) == EdgeStatement(edges[j])
      && exists name, color, toId :: sent[i] == CreateNode(IdTransform(Column(nodes[i], "~id").value), name, color)
                                  && sent[|nodes| + j] == MatchCreateEdge(IdTransform(Column(nodes[i], "~id").value), toId)
  {
  }
}

=== FILE: neptune.dfy ===
/** csv2neptune.py: each node row becomes an add-vertex traversal and each
    edge row an add-edge traversal, sent in file order, nodes before edges.
    The Gremlin connection is left out: a loader run is the sequence of
    traversals it would execute. */
module Neptune {
  import opened Common
  import opened Strings
  import Csv
  import opened Loading

  /** `g.addV(label).property(T.id, id).property(name, value)...` and
      `g.V(from).addE(label).to(g.V(to)).property(T.id, id).property(...)...`. */
  datatype Command =
    | AddV(tag: string, id: string, props: seq<(string, string)>)
    | AddE(tag: string, from: string, to: string, id: string, props: seq<(string, string)>)

  /** Columns starting with `~` are reserved and never become properties. */
  predicate Reserved(column: string) {
    |column| > 0 && column[0] == '~'
  }

  /** The row's non-reserved columns, in order. */
  function PropertyColumns(row: Csv.Row): (cols: Csv.Row)
    ensures |cols| <= |row|
    ensures forall p :: p in cols <==> p in row && !Reserved(p.0)
  {
    if |row| == 0 then []
    else if Reserved(row[0].0) then PropertyColumns(row[1..])
    else [row[0]] + PropertyColumns(row[1..])
  }

  /** A single cell is kept exactly when its column is not reserved. */
  lemma PropertyColumnsCell(c: (string, string))
    ensures PropertyColumns([c]) == if Reserved(c.0) then [] else [c]
  {
    assert [c][1..] == [];
  }

  /** Keeping the non-reserved columns is a filter: it keeps row order and
      duplicates nothing, so the columns of a concatenation are the
      concatenation of the columns. */
  lemma {:induction false} PropertyColumnsAppend(a: Csv.Row, b: Csv.Row)
    ensures PropertyColumns(a + b) == PropertyColumns(a) + PropertyColumns(b)
  {
    if |a| == 0 {
      assert a + b == b;
    } else {
      assert (a + b)[0] == a[0];
      assert (a + b)[1..] == a[1..] + b;
      PropertyColumnsAppend(a[1..], b);
      if Reserved(a[0].0) {
        assert PropertyColumns(a + b) == PropertyColumns(a[1..] + b);
      } else {
        assert PropertyColumns(a + b) == [a[0]] + PropertyColumns(a[1..] + b);
        assert [a[0]] + (PropertyColumns(a[1..]) + PropertyColumns(b))
            == [a[0]] + PropertyColumns(a[1..]) + PropertyColumns(b);
      }
    }
  }

  /** A property column must read `name:type`: exactly one `:`. */
  predicate WellTyped(column: string) {
    Count(column, ':') == 1
  }

  /** The property loop: every non-reserved column `name:type` gives the
      property `name` with the raw cell as its value; the first column that
      does not split into two parts is an error. */
  function Properties(row: Csv.Row): (r: Result<seq<(string, string)>, LoadError>)
    ensures r.Success? <==> forall i :: 0 <= i < |row| && !Reserved(row[i].0) ==> WellTyped(row[i].0)
    ensures r.Failure? ==> exists i :: 0 <= i < |row| && !Reserved(row[i].0) && !WellTyped(row[i].0)
                                       && r.error == BadPropertyColumn(row[i].0)
  {
    if |row| == 0 then Success([])
    else
      var column := row[0].0;
      if Reserved(column) then Properties(row[1..])
      else
        var parts := Split(column, ':');
        if |parts| != 2 then Failure(BadPropertyColumn(column))
        else
          match Properties(row[1..])
          case Failure(e) => Failure(e)
          case Success(rest) => Success([(parts[0], row[0].1)] + rest)
  }

  /** Property `p` comes from cell `c`: its name is the text of `c`'s column
      before its only `:`, and its value is `c`'s raw cell. */
  predicate NamedFrom(p: (string, string), c: (string, string)) {
    && p.1 == c.1
    && p.0 + ":" <= c.0
    && ':' !in p.0
    && ':' !in c.0[|p.0| + 1..]
  }

  /** The properties of a well-typed row, one per non-reserved column in
      column order: the name is the column's text before its `:`, the value
      is the raw cell. */
  lemma {:induction false} PropertiesSpec(row: Csv.Row)
    requires Properties(row).Success?
    ensures var props, cols := Properties(row).value, PropertyColumns(row);
      |props| == |cols| && forall i :: 0 <= i < |cols| ==> NamedFrom(props[i], cols[i])
  {
    if |row| > 0 {
      PropertiesSpec(row[1..]);
      var column := row[0].0;
      if !Reserved(column) {
        var parts := Split(column, ':');
        var head := (parts[0], row[0].1);
        assert NamedFrom(head, row[0]) by {
          JoinSplit(column, ':');
          assert column == parts[0] + ":" + parts[1];
          assert column[|parts[0]| + 1..] == parts[1];
        }
        var props, rest := Properties(row).value, Properties(row[1..]).value;
        var cols, restCols := PropertyColumns(row), PropertyColumns(row[1..]);
        assert cols == [row[0]] + restCols;
        assert props == [head] + rest;
        forall i | 0 <= i < |cols|
          ensures NamedFrom(props[i], cols[i])
        {
          if i > 0 {
            assert props[i] == rest[i - 1] && cols[i] == restCols[i - 1];
          }
        }
      } else {
        assert PropertyColumns(row) == PropertyColumns(row[1..]);
      }
    }
  }

  /** The property loop goes column by column: the properties of two rows
      side by side are those of the first followed by those of the second. */
  lemma {:induction false} PropertiesAppend(a: Csv.Row, b: Csv.Row)
    requires Properties(a).Success? && Properties(b).Success?
    ensures Properties(a + b) == Success(Properties(a).value + Properties(b).value)
  {
    if |a| == 0 {
      assert a + b == b;
      assert Properties(a).value + Properties(b).value == Properties(b).value;
    } else {
      assert (a + b)[0] == a[0];
      assert (a + b)[1..] == a[1..] + b;
      var column := a[0].0;
      if Reserved(column) {
        assert Properties(a) == Properties(a[1..]);
        PropertiesAppend(a[1..], b);
        assert Properties(a + b) == Properties(a[1..] + b);
      } else {
        var parts := Split(column, ':');
        assert |parts| == 2;
        assert Properties(a[1..]).Success?;
        PropertiesAppend(a[1..], b);
        var head := (parts[0], a[0].1);
        assert Properties(a).value == [head] + Properties(a[1..]).value;
        assert Properties(a + b).value == [head] + Properties(a[1..] + b).value;
        assert [head] + (Properties(a[1..]).value + Properties(b).value)
            == [head] + Properties(a[1..]).value + Properties(b).value;
      }
    }
  }

  /** The traversal for one node row. */
  function VertexCommand(row: Csv.Row): (r: Result<Command, LoadError>)
    ensures r.Success? <==> Column(row, "~id").Success? && Column(row, "~label").Success? && Properties(row).Success?
    ensures r.Success? ==> r.value == AddV(Column(row, "~label").value, IdTransform(Column(row, "~id").value), Properties(row).value)
    ensures r.Failure? ==> r.error == if Column(row, "~id").Failure? then MissingColumn("~id")
                                      else if Column(row, "~label").Failure? then MissingColumn("~label")
                                      else Properties(row).error
  {
    var id :- Column(row, "~id");
    var tag :- Column(row, "~label");
    var props :- Properties(row);
    Success(AddV(tag, IdTransform(id), props))
  }

  /** The traversal for one edge row: its id, source and target all pass
      through the same id transform as vertex ids. */
  function EdgeCommand(row: Csv.Row): (r: Result<Command, LoadError>)
    ensures r.Success? <==>
      && Column(row, "~id").Success? && Column(row, "~from").Success? && Column(row, "~to").Success?
      && Column(row, "~label").Success? && Properties(row).Success?
    ensures r.Success? ==> r.value == AddE(Column(row, "~label").value, IdTransform(Column(row, "~from").value),
                                           IdTransform(Column(row, "~to").value), IdTransform(Column(row, "~id").value),
                                           Properties(row).value)
    ensures r.Failure? ==> r.error == if Column(row, "~id").Failure? then MissingColumn("~id")
                                      else if Column(row, "~from").Failure? then MissingColumn("~from")
                                      else if Column(row, "~to").Failure? then MissingColumn("~to")
                                      else if Column(row, "~label").Failure? then MissingColumn("~label")
                                      else Properties(row).error
  {
    var id :- Column(row, "~id");
    var from :- Column(row, "~from");
    var to :- Column(row, "~to");
    var tag :- Column(row, "~label");
    var props :- Properties(row);
    Success(AddE(tag, IdTransform(from), IdTransform(to), IdTransform(id), props))
  }

  /** `main`: the vertex file, then the edge file. Every vertex traversal
      precedes every edge traversal, and a run stopped in the vertex file
      sends no edge. */
  function Load(nodes: seq<Csv.Row>, edges: seq<Csv.Row>): (r: Run<Command>)
    ensures |r.sent| <= |nodes| + |edges|
    ensures r.error.None? ==> |r.sent| == |nodes| + |edges|
    ensures r.error.None? <==>
              (forall i :: 0 <= i < |nodes| ==> VertexCommand(nodes[i]).Success?) &&
              (forall j :: 0 <= j < |edges| ==> EdgeCommand(edges[j]).Success?)
    ensures forall i :: 0 <= i < |r.sent| ==> (r.sent[i].AddV? <==> i < |nodes|)
    ensures forall i :: 0 <= i < |nodes| && i < |r.sent| ==> VertexCommand(nodes[i]) == Success(r.sent[i])
    ensures forall j :: 0 <= j < |edges| && |nodes| + j < |r.sent| ==> EdgeCommand(edges[j]) == Success(r.sent[|nodes| + j])
    ensures |r.sent| < |nodes| ==> r.error.Some? && VertexCommand(nodes[|r.sent|]) == Failure(r.error.value)
    ensures r.error.Some? && |r.sent| >= |nodes| ==>
              |r.sent| < |nodes| + |edges| && EdgeCommand(edges[|r.sent| - |nodes|]) == Failure(r.error.value)
  {
    Loading.Load(nodes, edges, VertexCommand, EdgeCommand)
  }

  /** A complete run sends exactly one vertex per node row and then one edge
      per edge row, each in file order, with no deduplication: two node rows
      with the same `~id` give two vertex traversals. */
  lemma VerticesThenEdges(nodes: seq<Csv.Row>, edges: seq<Csv.Row>)
    requires Load(nodes, edges).error.None?
    ensures var sent := Load(nodes, edges).sent;
      && |sent| == |nodes| + |edges|
      && (forall i :: 0 <= i < |nodes| ==> sent[i].AddV? && Success(sent[i]) == VertexCommand(nodes[i]))
      && (forall j :: 0 <= j < |edges| ==> sent[|nodes| + j].AddE? && Success(sent[|nodes| + j]) == EdgeCommand(edges[j]))
  {
  }

  /** An edge whose `~from` (or `~to`) names a node row's `~id` starts (or
      ends) at exactly the id that node's vertex was created with. */
  lemma EdgeEndpointsMatchVertices(nodes: seq<Csv.Row>, edges: seq<Csv.Row>, i: int, j: int)
    requires Load(nodes, edges).error.None?
    requires 0 <= i < |nodes| && 0 <= j < |edges|
    ensures var sent := Load(nodes, edges).sent;
      && (Column(edges[j], "~from") == Column(nodes[i], "~id") ==> sent[|nodes| + j].from == sent[i].id)
      && (Column(edges[j], "~to") == Column(nodes[i], "~id") ==> sent[|nodes| + j].to == sent[i].id)
  {
    VerticesThenEdges(nodes, edges);
  }

  /** A node row missing `~id` stops the run there: the earlier vertices
      have been sent and no edge ever is. */
  lemma MissingIdStopsRun(nodes: seq<Csv.Row>, edges: seq<Csv.Row>, k: int)
    requires 0 <= k < |nodes|
    requires forall i :: 0 <= i < k ==> VertexCommand(nodes[i]).Success?
    requires Column(nodes[k], "~id").Failure?
    ensures Load(nodes, edges).sent == seq(k, i requires 0 <= i < k => VertexCommand(nodes[i]).value)
    ensures Load(nodes, edges).error == Some(MissingColumn("~id"))
  {
    var r := Load(nodes, edges);
    assert |r.sent| == k;
  }
}

=== FILE: pipeline.dfy ===
/** The three scripts chained: wmata2csv.py writes the node and edge files,
    and either loader reads them back. The lemmas here follow one station
    record and one segment record through the files to the command or
    statement a loader derives from them. */
module Pipeline {
  import opened Common
  import opened Strings
  import Csv
  import opened Loading
  import opened Fetch
  import Neptune
  import Neo4j

  /** The row a loader reads for a station the fetcher wrote. */
  function StationRow(s: Station): (row: Csv.Row)
    ensures |row| == |NodeHeader|
  {
    Csv.Read(NodeHeader, Csv.Write(NodeHeader, s.Fields()))
  }

  /** The row a loader reads for a segment the fetcher wrote. */
  function SegmentRow(s: Segment): (row: Csv.Row)
    ensures |row| == |EdgeHeader|
  {
    Csv.Read(EdgeHeader, Csv.Write(EdgeHeader, s.Fields()))
  }

  /** A typed column name `name:type` splits into its two parts. */
  lemma SplitTyped(name: string, typ: string)
    requires ':' !in name && ':' !in typ
    ensures Split(name + ":" + typ, ':') == [name, typ]
  {
    SplitWithout(typ, ':');
    SplitAfter(name, ':', typ);
  }

  lemma StationRowCells(s: Station)
    ensures StationRow(s) == [("~id", s.id), ("~label", s.tag), ("name:string", s.name),
                              ("lat:double", s.lat), ("lon:double", s.lon), ("color:string", s.color)]
  {
    NodeRowShape(s);
  }

  lemma SegmentRowCells(s: Segment)
    ensures SegmentRow(s) == [("~id", s.id), ("~from", s.from), ("~to", s.to), ("~label", s.tag),
                              ("distance:int", s.distance), ("color:string", s.color)]
  {
    EdgeRowShape(s);
  }

  /** A single typed cell `name:type` gives the property `name` with the
      cell as its value. */
  lemma TypedCell(name: string, typ: string, v: string)
    requires ':' !in name && ':' !in typ && !Neptune.Reserved(name + ":" + typ)
    ensures Neptune.Properties([(name + ":" + typ, v)]) == Success([(name, v)])
  {
    var row: Csv.Row := [(name + ":" + typ, v)];
    SplitTyped(name, typ);
    assert row[0].0 == name + ":" + typ && row[1..] == [];
    assert Neptune.Properties(row[1..]) == Success([]);
    assert Neptune.Properties(row).value == [(name, v)] + [];
    assert [(name, v)] + [] == [(name, v)];
  }

  /** A single reserved cell gives no property. */
  lemma ReservedCell(c: string, v: string)
    requires Neptune.Reserved(c)
    ensures Neptune.Properties([(c, v)]) == Success([])
  {
    assert [(c, v)][1..] == [];
  }

  /** The header columns are pairwise distinct. */
  lemma HeadersDistinct()
    ensures forall i, j :: 0 <= i < j < |NodeHeader| ==> NodeHeader[i] != NodeHeader[j]
    ensures forall i, j :: 0 <= i < j < |EdgeHeader| ==> EdgeHeader[i] != EdgeHeader[j]
  {
  }

  /** The columns the loaders look up, on a station row. */
  lemma StationColumns(s: Station)
    ensures Column(StationRow(s), "~id") == Success(s.id)
    ensures Column(StationRow(s), "~label") == Success(s.tag)
    ensures Column(StationRow(s), "name:string") == Success(s.name)
    ensures Column(StationRow(s), "color:string") == Success(s.color)
  {
    var row := StationRow(s);
    StationRowCells(s);
    HeadersDistinct();
    Csv.GetDistinct(row, 0);
    Csv.GetDistinct(row, 1);
    Csv.GetDistinct(row, 2);
    Csv.GetDistinct(row, 5);
  }

  /** The columns the loaders look up, on a segment row. */
  lemma SegmentColumns(s: Segment)
    ensures Column(SegmentRow(s), "~id") == Success(s.id)
    ensures Column(SegmentRow(s), "~from") == Success(s.from)
    ensures Column(SegmentRow(s), "~to") == Success(s.to)
    ensures Column(SegmentRow(s), "~label") == Success(s.tag)
  {
    var row := SegmentRow(s);
    SegmentRowCells(s);
    HeadersDistinct();
    Csv.GetDistinct(row, 0);
    Csv.GetDistinct(row, 1);
    Csv.GetDistinct(row, 2);
    Csv.GetDistinct(row, 3);
  }

  /** Two reserved cells, then four typed cells `name:type`: the four
      properties, in order. Stated over variable columns and values and
      instantiated once with the node header, because unfolding `Split` on
      literal column names makes the proof too expensive. */
  lemma NodeShapeProperties(r0: string, v0: string, r1: string, v1: string,
                            n2: string, t2: string, v2: string, n3: string, t3: string, v3: string,
                            n4: string, t4: string, v4: string, n5: string, t5: string, v5: string)
    requires Neptune.Reserved(r0) && Neptune.Reserved(r1)
    requires ':' !in n2 && ':' !in t2 && !Neptune.Reserved(n2 + ":" + t2)
    requires ':' !in n3 && ':' !in t3 && !Neptune.Reserved(n3 + ":" + t3)
    requires ':' !in n4 && ':' !in t4 && !Neptune.Reserved(n4 + ":" + t4)
    requires ':' !in n5 && ':' !in t5 && !Neptune.Reserved(n5 + ":" + t5)
    ensures Neptune.Properties([(r0, v0), (r1, v1), (n2 + ":" + t2, v2), (n3 + ":" + t3, v3), (n4 + ":" + t4, v4), (n5 + ":" + t5, v5)])
         == Success([(n2, v2), (n3, v3), (n4, v4), (n5, v5)])
  {
    var c0, c1, c2, c3, c4, c5 := [(r0, v0)], [(r1, v1)], [(n2 + ":" + t2, v2)],
                                  [(n3 + ":" + t3, v3)], [(n4 + ":" + t4, v4)], [(n5 + ":" + t5, v5)];
    ReservedCell(r0, v0);
    ReservedCell(r1, v1);
    TypedCell(n2, t2, v2);
    TypedCell(n3, t3, v3);
    TypedCell(n4, t4, v4);
    TypedCell(n5, t5, v5);
    Neptune.PropertiesAppend(c0, c1);
    Neptune.PropertiesAppend(c0 + c1, c2);
    Neptune.PropertiesAppend(c0 + c1 + c2, c3);
    Neptune.PropertiesAppend(c0 + c1 + c2 + c3, c4);
    Neptune.PropertiesAppend(c0 + c1 + c2 + c3 + c4, c5);
    assert c0 + c1 + c2 + c3 + c4 + c5 == [(r0, v0), (r1, v1), (n2 + ":" + t2, v2), (n3 + ":" + t3, v3), (n4 + ":" + t4, v4), (n5 + ":" + t5, v5)];
    assert [] + [] + [(n2, v2)] + [(n3, v3)] + [(n4, v4)] + [(n5, v5)] == [(n2, v2), (n3, v3), (n4, v4), (n5, v5)];
  }

  /** Four reserved cells, then two typed cells `name:type`: the two
      properties, in order. Variable columns for the same reason as
      NodeShapeProperties. */
  lemma EdgeShapeProperties(r0: string, v0: string, r1: string, v1: string, r2: string, v2: string, r3: string, v3: string,
                            n4: string, t4: string, v4: string, n5: string, t5: string, v5: string)
    requires Neptune.Reserved(r0) && Neptune.Reserved(r1) && Neptune.Reserved(r2) && Neptune.Reserved(r3)
    requires ':' !in n4 && ':' !in t4 && !Neptune.Reserved(n4 + ":" + t4)
    requires ':' !in n5 && ':' !in t5 && !Neptune.Reserved(n5 + ":" + t5)
    ensures Neptune.Properties([(r0, v0), (r1, v1), (r2, v2), (r3, v3), (n4 + ":" + t4, v4), (n5 + ":" + t5, v5)])
         == Success([(n4, v4), (n5, v5)])
  {
    var c0, c1, c2, c3, c4, c5 := [(r0, v0)], [(r1, v1)], [(r2, v2)], [(r3, v3)], [(n4 + ":" + t4, v4)], [(n5 + ":" + t5, v5)];
    ReservedCell(r0, v0);
    ReservedCell(r1, v1);
    ReservedCell(r2, v2);
    ReservedCell(r3, v3);
    TypedCell(n4, t4, v4);
    TypedCell(n5, t5, v5);
    Neptune.PropertiesAppend(c0, c1);
    Neptune.PropertiesAppend(c0 + c1, c2);
    Neptune.PropertiesAppend(c0 + c1 + c2, c3);
    Neptune.PropertiesAppend(c0 + c1 + c2 + c3, c4);
    Neptune.PropertiesAppend(c0 + c1 + c2 + c3 + c4, c5);
    assert c0 + c1 + c2 + c3 + c4 + c5 == [(r0, v0), (r1, v1), (r2, v2), (r3, v3), (n4 + ":" + t4, v4), (n5 + ":" + t5, v5)];
    assert [] + [] + [] + [] + [(n4, v4)] + [(n5, v5)] == [(n4, v4), (n5, v5)];
  }

  /** A station row's properties: every non-reserved column, in order. */
  lemma StationProperties(s: Station)
    ensures Neptune.Properties(StationRow(s))
         == Success([("name", s.name), ("lat", s.lat), ("lon", s.lon), ("color", s.color)])
  {
    var name, lat, lon, color, str, dbl := "name", "lat", "lon", "color", "string", "double";
    assert name + ":" + str == "name:string" && lat + ":" + dbl == "lat:double";
    assert lon + ":" + dbl == "lon:double" && color + ":" + str == "color:string";
    StationRowCells(s);
    NodeShapeProperties("~id", s.id, "~label", s.tag, name, str, s.name, lat, dbl, s.lat,
                        lon, dbl, s.lon, color, str, s.color);
  }

  /** A segment row's properties: distance and colour, in order. */
  lemma SegmentProperties(s: Segment)
    ensures Neptune.Properties(SegmentRow(s)) == Success([("distance", s.distance), ("color", s.color)])
  {
    var distance, color, num, str := "distance", "color", "int", "string";
    assert distance + ":" + num == "distance:int" && color + ":" + str == "color:string";
    SegmentRowCells(s);
    EdgeShapeProperties("~id", s.id, "~from", s.from, "~to", s.to, "~label", s.tag,
                        distance, num, s.distance, color, str, s.color);
  }

  /** A station becomes the vertex with its label, its transformed id and its
      four properties, named without their type suffix, in header order. */
  lemma StationVertex(s: Station)
    ensures Neptune.VertexCommand(StationRow(s))
         == Success(Neptune.AddV(s.tag, IdTransform(s.id),
                                 [("name", s.name), ("lat", s.lat), ("lon", s.lon), ("color", s.color)]))
  {
    StationColumns(s);
    StationProperties(s);
  }

  /** A segment becomes the edge between the transformed ids of its endpoint
      names, with its distance and colour; its line code never arrives. */
  lemma SegmentEdge(s: Segment)
    ensures Neptune.EdgeCommand(SegmentRow(s))
         == Success(Neptune.AddE(s.tag, IdTransform(s.from), IdTransform(s.to), IdTransform(s.id),
                                 [("distance", s.distance), ("color", s.color)]))
  {
    SegmentColumns(s);
    SegmentProperties(s);
  }

  /** The Cypher loader keeps only a station's id, name and colour. */
  lemma StationCreate(s: Station)
    ensures Neo4j.NodeStatement(StationRow(s)) == Success(Neo4j.CreateNode(IdTransform(s.id), s.name, s.color))
  {
    StationColumns(s);
  }

  /** The Cypher loader links the stations named by a segment's endpoints. */
  lemma SegmentMatch(s: Segment)
    ensures Neo4j.EdgeStatement(SegmentRow(s)) == Success(Neo4j.MatchCreateEdge(IdTransform(s.from), IdTransform(s.to)))
  {
    SegmentColumns(s);
  }

  /** An edge between two stations keyed by their own ids starts and ends at
      those stations' vertex ids. */
  lemma EdgeJoinsVertices(seg: Segment, from: Station, to: Station)
    requires from.id == seg.from && to.id == seg.to
    ensures var e, a, b := Neptune.EdgeCommand(SegmentRow(seg)), Neptune.VertexCommand(StationRow(from)),
                           Neptune.VertexCommand(StationRow(to));
      && e.Success? && a.Success? && b.Success?
      && e.value.from == a.value.id && e.value.to == b.value.id
  {
    SegmentEdge(seg);
    StationVertex(from);
    StationVertex(to);
  }

  /** After a successful fetch, every edge the graph loader adds starts and
      ends at the id of a vertex it has added: each row of the edge file,
      read back, gives an edge whose endpoints are the ids of the vertices
      that the node file's rows for its two stations give. */
  lemma EdgesJoinVertices(lineInfos: seq<LineInfo>, stationInfos: seq<StationInfo>, order: seq<string>,
                          path: (string, string) -> seq<PathStep>, k: string)
    requires EnumeratesLines(order, lineInfos)
    requires Fetch.Run(lineInfos, stationInfos, order, path).Success?
    requires Fetch.Run(lineInfos, stationInfos, order, path).value.segments.Success?
    requires k in Fetch.Run(lineInfos, stationInfos, order, path).value.segments.value
    ensures var out := Fetch.Run(lineInfos, stationInfos, order, path).value;
      var segs := out.segments.value;
      && segs[k].from in out.stations && segs[k].to in out.stations
      && var e := Neptune.EdgeCommand(Csv.Read(EdgeHeader, EdgeRows(segs)[k]));
         var a := Neptune.VertexCommand(Csv.Read(NodeHeader, NodeRows(out.stations)[segs[k].from]));
         var b := Neptune.VertexCommand(Csv.Read(NodeHeader, NodeRows(out.stations)[segs[k].to]));
         && e.Success? && a.Success? && b.Success?
         && e.value.from == a.value.id && e.value.to == b.value.id
  {
    var out := Fetch.Run(lineInfos, stationInfos, order, path).value;
    var seg := out.segments.value[k];
    assert Csv.Read(EdgeHeader, EdgeRows(out.segments.value)[k]) == SegmentRow(seg);
    assert Csv.Read(NodeHeader, NodeRows(out.stations)[seg.from]) == StationRow(out.stations[seg.from]);
    assert Csv.Read(NodeHeader, NodeRows(out.stations)[seg.to]) == StationRow(out.stations[seg.to]);
    EdgeJoinsVertices(seg, out.stations[seg.from], out.stations[seg.to]);
  }

  /** Through the Cypher loader, a segment's `MATCH` looks its source up by
      exactly the id literal the source station's `CREATE` stored, as long
      as no spliced value contains `"`. */
  lemma CypherEdgeFindsNode(seg: Segment, from: Station)
    requires from.id == seg.from
    requires '"' !in seg.from && '"' !in seg.to && '"' !in from.name && '"' !in from.color
    ensures var e, n := Neo4j.EdgeStatement(SegmentRow(seg)), Neo4j.NodeStatement(StationRow(from));
      && e.Success? && n.Success?
      && Neo4j.Quoted(e.value) == [IdTransform(seg.from), IdTransform(seg.to)]
      && Neo4j.Quoted(n.value) == [IdTransform(seg.from), from.name, from.color]
  {
    assert '"' !in IdTransform(seg.from) && '"' !in IdTransform(seg.to) by {
      assert forall x: string :: '"' !in x ==> '"' !in IdTransform(x) by {
        assert '"' !in "id_";
      }
    }
    SegmentMatch(seg);
    StationCreate(from);
    Neo4j.MatchCreateEdgeQuoted(IdTransform(seg.from), IdTransform(seg.to));
    Neo4j.CreateNodeQuoted(IdTransform(from.id), from.name, from.color);
  }
}

=== FILE: strings.dfy ===
/** The few string operations the scripts rely on: ASCII `str.lower`,
    `str.split` on a one-character separator, and decimal rendering of a
    list index. */
module Strings {

  predicate IsUpper(c: char) {
    'A' <= c <= 'Z'
  }

  function LowerChar(c: char): char {
    if IsUpper(c) then (c as int + 32) as char else c
  }

  /** `str.lower`, restricted to ASCII letters. */
  function Lower(s: string): (r: string)
    ensures |r| == |s|
    ensures forall i :: 0 <= i < |s| ==> !IsUpper(r[i])
    ensures forall i :: 0 <= i < |s| && !IsUpper(s[i]) ==> r[i] == s[i]
    ensures forall i :: 0 <= i < |s| && IsUpper(s[i]) ==>
              'a' <= r[i] <= 'z' && r[i] as int - 'a' as int == s[i] as int - 'A' as int
  {
    if |s| == 0 then "" else [LowerChar(s[0])] + Lower(s[1..])
  }

  /** Lower-casing a lower-cased string changes nothing. */
  lemma {:induction false} LowerIdempotent(s: string)
    ensures Lower(Lower(s)) == Lower(s)
  {
    if |s| > 0 {
      LowerIdempotent(s[1..]);
    }
  }

  /** Number of occurrences of `d` in `s`. */
  function Count(s: string, d: char): nat {
    if |s| == 0 then 0 else (if s[0] == d then 1 else 0) + Count(s[1..], d)
  }

  /** `s.split(d)` for a one-character separator `d`: the pieces between
      consecutive occurrences of `d`, empty pieces included. */
  function Split(s: string, d: char): (parts: seq<string>)
    ensures |parts| == Count(s, d) + 1
    ensures forall i :: 0 <= i < |parts| ==> d !in parts[i]
  {
    if |s| == 0 then [""]
    else
      var rest := Split(s[1..], d);
      if s[0] == d then [""] + rest else [[s[0]] + rest[0]] + rest[1..]
  }

  /** `d.join(parts)`, the inverse of `Split`. */
  function Join(parts: seq<string>, d: char): string
    requires |parts| > 0
  {
    if |parts| == 1 then parts[0] else parts[0] + [d] + Join(parts[1..], d)
  }

  /** Joining the pieces of a split gives back the original string. */
  lemma {:induction false} JoinSplit(s: string, d: char)
    ensures Join(Split(s, d), d) == s
  {
    if |s| > 0 {
      JoinSplit(s[1..], d);
      var rest := Split(s[1..], d);
      if s[0] != d {
        if |rest| > 1 {
          assert ([[s[0]] + rest[0]] + rest[1..])[1..] == rest[1..];
        }
      }
    }
  }

  /** Splitting a string with no separator yields that string alone. */
  lemma {:induction false} SplitWithout(s: string, d: char)
    requires d !in s
    ensures Split(s, d) == [s]
  {
    if |s| > 0 {
      SplitWithout(s[1..], d);
      assert [s[0]] + s[1..] == s;
    }
  }

  /** A separator after a separator-free head cuts off exactly that head. */
  lemma {:induction false} SplitAfter(a: string, d: char, b: string)
    requires d !in a
    ensures Split(a + [d] + b, d) == [a] + Split(b, d)
  {
    if |a| > 0 {
      assert (a + [d] + b)[1..] == a[1..] + [d] + b;
      SplitAfter(a[1..], d, b);
      assert [a[0]] + a[1..] == a;
    } else {
      assert a + [d] + b == [d] + b;
    }
  }

  /** Splitting joined pieces gives back the pieces, provided none of them
      contains the separator. */
  lemma {:induction false} SplitJoin(parts: seq<string>, d: char)
    requires |parts| > 0
    requires forall i :: 0 <= i < |parts| ==> d !in parts[i]
    ensures Split(Join(parts, d), d) == parts
  {
    if |parts| == 1 {
      SplitWithout(parts[0], d);
    } else {
      SplitJoin(parts[1..], d);
      SplitAfter(parts[0], d, Join(parts[1..], d));
    }
  }

  predicate IsDigit(c: char) {
    '0' <= c <= '9'
  }

  function DigitChar(n: nat): char
    requires n < 10
  {
    ('0' as int + n) as char
  }

  /** `str(n)` for a natural number: its decimal digits, most significant first. */
  function NatToString(n: nat): (s: string)
    ensures |s| > 0
    ensures forall i :: 0 <= i < |s| ==> IsDigit(s[i])
    ensures s[0] == '0' <==> n == 0
    ensures |s| > 1 ==> s[0] != '0'
  {
    if n < 10 then [DigitChar(n)] else NatToString(n / 10) + [DigitChar(n % 10)]
  }

  /** `int(s)` for a string of decimal digits. */
  function ParseNat(s: string): int
    requires forall i :: 0 <= i < |s| ==> IsDigit(s[i])
  {
    if |s| == 0 then 0 else 10 * ParseNat(s[..|s| - 1]) + (s[|s| - 1] as int - '0' as int)
  }

  /** Reading back a rendered number gives the number. */
  lemma {:induction false} ParseNatToString(n: nat)
    ensures ParseNat(NatToString(n)) == n
  {
    if n >= 10 {
      var s := NatToString(n);
      assert s[..|s| - 1] == NatToString(n / 10);
      ParseNatToString(n / 10);
    } else {
      assert ParseNat(NatToString(n)) == 10 * ParseNat("") + n;
    }
  }

  /** Distinct numbers render as distinct strings. */
  lemma NatToStringInjective(m: nat, n: nat)
    requires NatToString(m) == NatToString(n)
    ensures m == n
  {
    ParseNatToString(m);
    ParseNatToString(n);
  }
}
